=== FILE: README.md ===
# AirOrder order pipeline in Dafny

A model of AirOrder's order pipeline. A passenger opens the in-flight menu page, fills a cart and places an order. The browser's API client talks to the Express server, whose menu and order routes answer behind a bearer-token middleware. A shared error handler turns thrown errors into JSON answers.

Every piece is written as pure functions over immutable datatypes. The little mutable state (cart lines, the client's retry counter, token storage) is passed in and returned. The server, as the client sees it, is a finite script of per-attempt outcomes. Money is integer cents: 15.99 is `1599`.

| file | module | models |
|---|---|---|
| `wrappers.dfy` | `Wrappers` | `Option` and `Result` |
| `strings.dfy` | `Strings` | JavaScript `join`, one-character `split` and `s \|\| fallback`, with the split/join round trip |
| `seqs.dfy` | `Seqs` | order-preserving `filter` and subsequences |
| `types.dfy` | `Types` | the shared records of `frontend/src/types/index.ts` |
| `channel.dfy` | `Channel` | the API client: bearer header, retry interceptor, error messages, envelope unwrapping, endpoints, login/logout |
| `menu_page.dfy` | `MenuPage` | the menu page: merge-on-add cart, count and total, menu filter, meal-slot status and selection, order placement |
| `menu_route.dfy` | `MenuRoute` | `GET /api/menu` |
| `order_route.dfy` | `OrderRoute` | `POST /api/order` |
| `auth.dfy` | `Auth` | `authenticateToken` |
| `error_handler.dfy` | `ErrorHandler` | `ApiError`, `notFound`, `errorHandler` |
| `interop.dfy` | `Interop` | how client and server fit together |

Facts about the code that the model keeps:

- Placing an order checks only that some meal slot id is selected. There is no check that the slot is still open.
- The cart has no remove, no quantity setter and no quantity validation.
- The retry counter belongs to the client instance. Every request shares it, so it is not reset per call.
- An error whose `code` is `NETWORK_ERROR` is retried, but it has no message of its own. It gets the generic text.
- The server puts its explanations in the `error` field, but the client's message chooser reads only `message`. A route's own error text therefore never reaches the toast.

## Model

| member | source | states |
|---|---|---|
| Strings.Split | backend/src/routes/menu.js:189 | there is at least one part, no part contains the separator, and joining the parts with the separator gives back the input |
| Strings.SplitJoin | frontend/src/services/api.ts:147 | splitting a separator-joined non-empty list of separator-free parts gives back the list |
| Strings.OptOrElse | backend/src/routes/order.js:69 | `x \|\| fallback`: an absent or empty string gives the fallback, any other the string itself |
| Channel.ShouldRetry | frontend/src/services/api.ts:69-75 | a failure is retried exactly when it is a 5xx answer, a timeout or a network error |
| Channel.ErrorMessage | frontend/src/services/api.ts:90-116 | a non-empty body `message` is shown as is; otherwise the fixed text of the failure's kind |
| Channel.ClassifierAgreesWithKinds | frontend/src/services/api.ts:69-116 | exactly 5xx, `ECONNABORTED` and `NETWORK_ERROR` are retried; a non-empty body `message` wins; otherwise 401, 403, 404, 5xx and timeout each get their fixed text and the rest the generic text; 401/403/404 are never retried |
| Channel.AuthorizationHeader | frontend/src/services/api.ts:36-39 | a header is added exactly when storage exists and holds a non-empty token, and it is `"Bearer " + token` |
| Channel.Exchange | frontend/src/services/api.ts:49-66 | the attempts are a prefix of the script; the retries before the last attempt never exceed what the shared counter has left below 3; every attempt but the last was a retryable failure; success resets the counter and shows no toast; a final failure is the last outcome, is toasted with its message, raised the counter by one per retry, and is non-retryable or met an exhausted counter |
| Channel.Request | frontend/src/services/api.ts:49-66 | the re-issuing loop gives the same reply as the recursive definition |
| Channel.UnwrapData | frontend/src/services/api.ts:155-159 | the payload is returned exactly when `success` and `data` are both present; otherwise the envelope's non-empty `error` or the endpoint's fallback is thrown |
| Channel.UnwrapVoid | frontend/src/services/api.ts:210-212 | a void endpoint succeeds exactly when `success` holds, else throws `error` or its fallback |
| Channel.CallData | frontend/src/services/api.ts:150-159 | a data call succeeds exactly when the exchange delivered an envelope with `success` and `data`, returns that payload, keeps storage, and toasts exactly on transport failure, with the exchange's message; it leaves the shared counter and the attempt count of its exchange, throws the transport error itself on transport failure, and throws the envelope's `error` or the fallback when the envelope is refused |
| Channel.CallVoid | frontend/src/services/api.ts:204-213 | a void call succeeds exactly when the delivered envelope has `success`, and toasts exactly on transport failure, with the exchange's message; it leaves the shared counter and the attempt count of its exchange, throws the transport error on transport failure, and the envelope's `error` or the fallback otherwise |
| Channel.GetMenu | frontend/src/services/api.ts:137-160 | a data call with fallback "Failed to fetch menu": it returns the delivered menu exactly when the envelope has `success` and `data`, throws a transport failure as itself and a refused envelope's `error` or the fallback, and leaves the exchange's counter, attempt count and toast |
| Channel.CreateOrder | frontend/src/services/api.ts:163-175 | a data call with fallback "Failed to create order": it returns the delivered order exactly when the envelope has `success` and `data`, throws a transport failure as itself and a refused envelope's `error` or the fallback, and leaves the exchange's counter, attempt count and toast |
| Channel.CancelOrder | frontend/src/services/api.ts:204-213 | a void call with fallback "Failed to cancel order": it succeeds exactly when the envelope has `success`, throws a transport failure as itself and a refused envelope's `error` or the fallback, and leaves the exchange's counter, attempt count and toast |
| Channel.MenuQuery | frontend/src/services/api.ts:143-148 | the three required parameters in order, plus the comma-joined tags whenever a list is given |
| Channel.Login | frontend/src/services/api.ts:216-233 | a successful login in a browser stores the returned token; otherwise storage is left alone; the result, shared counter, attempt count and toast are those of the data call with fallback "Login failed" |
| Channel.Logout | frontend/src/services/api.ts:235-248 | logout always resolves, removes the stored token in a browser and touches nothing else in storage, and no header is sent afterwards; the shared counter, attempt count and toast are those of its exchange, so a failed logout still spends the counter and is toasted |
| Channel.LoginThenBearerHeader | frontend/src/services/api.ts:36-39 | after a successful login in a browser with a non-empty token, every request carries `"Bearer " + token` |
| Channel.PersistentFailureAttemptsFour | frontend/src/services/api.ts:57-61 | from a fresh counter, an always-retryable failure is tried 4 times, then rejected with the counter at 3 |
| Channel.ExhaustedCounterGivesNoRetry | frontend/src/services/api.ts:50-64 | once the shared counter is at 3, the next failing call gets one attempt and leaves the counter unchanged |
| Channel.NonRetryableFailsOnce | frontend/src/services/api.ts:57-64 | a non-retryable failure is rejected after one attempt and toasted once, whatever the counter |
| Channel.TwoServerErrorsThenSuccess | frontend/src/services/api.ts:49-61 | two 503s and a success take three attempts, return the payload and reset the counter |
| Channel.SharedCounterAcrossCalls | frontend/src/services/api.ts:17 | a call that spends all three retries leaves the counter at 3, so the next call's retryable failure gets a single attempt and is thrown |
| MenuPage.Bump | frontend/src/pages/menu.tsx:82-89 | same length; lines for the item gain one unit and every other line is unchanged |
| MenuPage.AddToCart | frontend/src/pages/menu.tsx:77-99 | an item already in the cart bumps its line and keeps the line count; a new item appends one line with quantity 1 and the item's price; the other form fields are untouched; the item is in the cart afterwards |
| MenuPage.ItemCountCoversLines | frontend/src/pages/menu.tsx:163 | about `ItemCount`, the `cartItemCount` reduce: with every line at one unit or more the count is at least the number of lines, so a non-empty cart never shows 0 |
| MenuPage.CartTotalNonNegative | frontend/src/pages/menu.tsx:164 | about `CartTotal`, the `cartTotal` reduce: with no negative price or quantity the total is not negative |
| MenuPage.AddKeepsUnitsPositive | frontend/src/pages/menu.tsx:82-98 | adding keeps every line at one unit or more |
| MenuPage.AddToCartSums | frontend/src/pages/menu.tsx:163-164 | each add raises the count by one and the total by the price of the line it lands on |
| MenuPage.AddPreservesUniqueIds | frontend/src/pages/menu.tsx:79-98 | adding never creates a second line for the same item |
| MenuPage.AddAllCounts | frontend/src/pages/menu.tsx:163 | n adds raise the count by n and keep one line per item |
| MenuPage.AddsFromEmpty | frontend/src/pages/menu.tsx:163 | from the empty cart, n adds give a count of n |
| MenuPage.FilteredMenu | frontend/src/pages/menu.tsx:137-161 | nothing before the menu loads; otherwise an order-preserving subsequence that holds exactly the items passing category, inclusive price and dietary-overlap tests, each as many times as the menu holds it |
| MenuPage.FilterMenuIdempotent | frontend/src/pages/menu.tsx:140-160 | filtering twice equals filtering once |
| MenuPage.FilterMenuIgnoresCabin | frontend/src/pages/menu.tsx:140-160 | the page's filter does not depend on the cabin class |
| MenuPage.StatusOf | frontend/src/pages/menu.tsx:261 | Locked exactly when locked; Active exactly when unlocked and active; Upcoming otherwise |
| MenuPage.ClickSlot | frontend/src/pages/menu.tsx:252 | a click on a slot that is not locked selects it; a click on a locked slot keeps the selection |
| MenuPage.SelectionNeverLocked | frontend/src/pages/menu.tsx:252 | after any clicks the selection is the initial one or a clicked slot that is not locked |
| MenuPage.PlaceOrder | frontend/src/pages/menu.tsx:63-127 | an empty cart is refused first, then a missing slot, with no request; otherwise the cart plus the slot is sent; the page then holds the client state and attempts of that `createOrder` call; it has an order exactly when the call returned one, and that order is the returned one; success empties the cart with one toast; failure keeps the cart and shows the channel's toast, if any, then the thrown message or "Failed to place order" |
| MenuRoute.GetMenu | backend/src/routes/menu.js:66-204 | 400 with the fixed text when a required parameter is missing or empty; otherwise 200 with all meal slots, the echoed flight and route id, and exactly the requested cabin's items matching a split tag |
| MenuRoute.ServedMenuSpec | backend/src/routes/menu.js:186-195 | the served items keep the fixed list's order and are exactly those of the cabin that match a tag when tags are given |
| MenuRoute.EconomyGlutenFreeIsItemOne | backend/src/routes/menu.js:86-104 | economy with `gluten-free` serves only the grilled chicken, id "1" |
| OrderRoute.CreateOrder | backend/src/routes/order.js:46-87 | 400 with the fixed text unless `items` is a non-empty array; otherwise 201 with the lines in order at 15.99, the total from the request's prices, status pending, the defaults for seat, tags and requests, and slot `lunch` |
| OrderRoute.UnpricedTotal | backend/src/routes/order.js:74 | about `RequestTotal`, the `totalAmount` reduce: when no line sends a usable price the total is 15.99 per unit |
| OrderRoute.SentPriceCounts | backend/src/routes/order.js:74 | about `RequestTotal`: a line's own non-zero price is what is charged: raising it by one cent raises the total by that line's quantity |
| OrderRoute.MealSlotIgnored | backend/src/routes/order.js:48 | the request's meal slot never changes the response |
| Auth.ExtractToken | backend/src/middleware/auth.js:6-7 | the second space-separated field of a non-empty header, when there is one; it never contains a space |
| Auth.Authenticate | backend/src/middleware/auth.js:4-29 | 401 exactly when no non-empty token is found; 403 exactly when `verify` rejects it; otherwise proceed with the decoded payload |
| Auth.BearerRoundTrip | backend/src/middleware/auth.js:7 | `"Bearer " + t` yields `t` back for any token without spaces |
| Auth.SpaceCutsToken | backend/src/middleware/auth.js:7 | for `"Bearer " + a + " " + b` with `a` space-free, the token is exactly `a`, whatever `b` is |
| ErrorHandler.ConvertedMatchesNoRule | backend/src/middleware/errorHandler.js:6-15 | a converted `ApiError` is named "Error" and has no code, `isJoi` or `isAxiosError` |
| ErrorHandler.ConversionsAreFirstMatch | backend/src/middleware/errorHandler.js:49-89 | the seven sequential conversions equal the first matching rule of the table |
| ErrorHandler.Finalize | backend/src/middleware/errorHandler.js:92-96 | an `ApiError` passes through; anything else takes its status or 500 and its message or "Internal Server Error", non-operational |
| ErrorHandler.HandleError | backend/src/middleware/errorHandler.js:33-146 | `success` is always false; status and `error` are the final error's; debug fields only in development, and there exactly the request's path and verb; a handler that throws answers the fixed 500 fallback |
| ErrorHandler.NotFound | backend/src/middleware/errorHandler.js:20-23 | an operational 404 with "Route <url> not found" |
| ErrorHandler.NotFoundAnswers404 | backend/src/middleware/errorHandler.js:20-28 | an unmatched URL is answered 404 with that message in any environment |
| ErrorHandler.ValidationAnswers400 | backend/src/middleware/errorHandler.js:49-52 | a validation error answers 400 with its field messages joined by ", " |
| ErrorHandler.CastWinsOverDuplicateCode | backend/src/middleware/errorHandler.js:54-62 | a cast error that also carries code 11000 is still reported as a cast error |
| Interop.ServerReadsClientQuery | frontend/src/services/api.ts:143-148 | the route reads back each parameter the client wrote, and the tags as their joined string |
| Interop.StoredTokenReachesVerification | frontend/src/services/api.ts:38 | a stored space-free token reaches the middleware unchanged, which then answers 403 or proceeds exactly as `verify` decides |
| Interop.NoTokenIsRejected401 | backend/src/middleware/auth.js:9-15 | with no usable stored token, the middleware answers 401 "Access token required" |
| Interop.OrderWithoutTokenFailsOnce | frontend/src/pages/menu.tsx:71-73 | an order placed without a token makes one attempt, keeps the cart, and toasts the client's log-in text and then the transport's message |
| Interop.DietaryRoundTrip | backend/src/routes/menu.js:189 | the route splits the client's joined tags back into the same list |
| Interop.MenuRequestHonoursTags | backend/src/routes/menu.js:188-195 | a request with comma-free tags is served exactly the cabin's items that carry one of them |
| Interop.EmptyTagListFiltersNothing | frontend/src/services/api.ts:147 | the page's initial empty tag list is sent as an empty value and no dietary filter is applied |
| Interop.MissingParameterShowsGenericToast | frontend/src/services/api.ts:91-93 | a 400 for a missing parameter is not retried, and the toast is the generic text instead of the route's explanation |
| Interop.OrderTotalMatchesCart | backend/src/routes/order.js:74 | when no line is free, the order total equals the cart total the page showed |
| Interop.PlacedOrderIsRouteOrder | frontend/src/pages/menu.tsx:63-68 | when the route answers the cart's lines with its 201 envelope, the channel returns the route's order on the first attempt, and the page keeps that order, empties the cart and shows only the success toast; with no free line the order's total is the cart total |
| Interop.FreeItemIsCharged | backend/src/routes/order.js:74 | a price of 0 is treated as missing and charged 15.99 |
| Interop.FixedPriceLinesTotal | backend/src/routes/order.js:70-73 | lines all priced 15.99 add up to 15.99 times the units |
| Interop.TotalCanDisagreeWithLines | backend/src/routes/order.js:70-74 | a 12.99 line is charged 12.99 but returned priced 15.99 |

## Left out

- Rendering, styling, animation and toasts as UI. The channel's and the order placement's toasts are recorded as output strings.
- MenuPage.AddToCart: does not record the `"<name> added to cart"` success toast (`frontend/src/pages/menu.tsx:101`). It returns only the new cart. Its `"Failed to add item to cart"` toast is unreachable, as nothing in the model's add throws.
- The add-to-cart button is disabled for unavailable items (`frontend/src/pages/menu.tsx:313`). That is a UI control; `handleAddToCart` itself does not check availability.
- react-query's caching, `staleTime` and its own `retry: 3` on the menu query. These are library behaviour and stack on top of the client's retry.
- Axios timeout timers and the real network. A timeout is the `ECONNABORTED` outcome. The transport's own error text is an opaque string parameter.
- Percent-encoding of the query string. Parameters are key/value pairs.
- `jwt.sign`, `jwt.verify` and bcrypt. Verification is a function parameter from token to optional payload.
- The Joi wrapper in `backend/src/middleware/validation.js`. It calls a library the model does not include.
- Logging everywhere, the server bootstrap (helmet, CORS, rate limit, signals) and the database configuration.
- `timeoutHandler`, `asyncHandler`, `errorBoundary`, `memoryLeakHandler` and the interval timer in the error handler. These are timers, promises and process memory.
- The mock routes for login, user, admin, crew and health. They hold fixed payloads and no pipeline logic.
- `Date.now()` and `new Date()` ids and timestamps. They are opaque string parameters.
- Floating-point prices. Prices are integer cents, so totals are exact.
- Channel.Exchange: models calls one at a time. The retry counter (`frontend/src/services/api.ts:17`) is shared by requests that can be in flight together, such as a menu refetch during `createOrder`. A success in one (`frontend/src/services/api.ts:51`) resets the counter in the middle of another's retries. Overlapping requests interleaving on the counter are not covered.
- Channel.Exchange: requires the script to hold enough outcomes for the longest possible run of attempts. This is an assumption about the environment, not about the client.
- MenuRoute.GetMenu: does not model the 500 "Failed to retrieve menu" answer. Only `dietaryRestrictions` reaches `.split` (`backend/src/routes/menu.js:189`), so that answer needs it to arrive as an array or as a nested object, and the model's query values are strings. An array-valued `flightNumber` or `cabinClass` does not throw.
- OrderRoute.CreateOrder: does not model the 500 "Failed to create order" answer when the `items` array holds `null`. Reading `price` of `null` (`backend/src/routes/order.js:74`) throws, and the handler's catch answers 500 (`backend/src/routes/order.js:89-95`). A request line cannot be null in the model.
- OrderRoute.CreateOrder: does not model a line whose `quantity` is missing or not numeric. `(item.price || 15.99) * item.quantity` is then `NaN` (`backend/src/routes/order.js:74`), and `totalAmount` is sent as `null`. A request line's quantity is an integer in the model.
- Auth.Authenticate: does not model the 500 "Authentication error" answer. Nothing in the modelled path throws.
- ErrorHandler.HandleError: does not model Express refusing a non-numeric or out-of-range status code. Its `stack` and `timestamp` debug fields are left out too; only `path` and `verb` are kept.
- ErrorHandler.HandleError: does not model the `details` branch. A `ValidationError` has already been converted to an `ApiError` by then, so that branch cannot run. The handler's own field list is therefore absent from every body.
- A validation error's `errors` object is modelled as a sequence of field errors, taken in the order `Object.values` lists them: integer-like keys first, then the rest in insertion order. The model takes that order as given. A Joi error's `details` is modelled as the sequence of its detail messages.
- The other API client endpoints: `getOrder`, `updateOrder`, `getCurrentUser`, the dietary profile pair, `getFlight`, `getAnalytics`, slot locking and unlocking, `exportToCatering`, `getPassengerMeals`, `reportServiceComplete`, `requestEmergencyMeal` and `healthCheck`. Each but the last is `CallData` or `CallVoid` with its own fallback text. `healthCheck` (`frontend/src/services/api.ts:402-413`) never reads the envelope's `error` and always throws the fixed "Health check failed".

=== FILE: auth.dfy ===
/** The bearer-token middleware (`backend/src/middleware/auth.js`). Token
    verification is a parameter: `verify(token)` is the decoded payload for a
    token it accepts and `None` for one it rejects. */
module Auth {
  import opened Wrappers
  import opened Strings
  import opened Types

  const TokenRequired := "Access token required"
  const TokenInvalid := "Invalid or expired token"

  /** The middleware either answers the request itself or passes it on with
      the decoded payload attached. */
  datatype Decision<U> = Respond(status: int, body: ApiResponse<()>) | Next(user: U)

  /** `authHeader && authHeader.split(' ')[1]`: the second space-separated
      field of a non-empty header. */
  function ExtractToken(header: Option<string>): (t: Option<string>)
    ensures header.None? || header.value == "" ==> t.None?
    ensures header.Some? && header.value != "" ==>
      (t.Some? <==> |Split(header.value, ' ')| >= 2)
    ensures t.Some? ==> t.value == Split(header.value, ' ')[1] && ' ' !in t.value
  {
    if header.None? || header.value == "" then None
    else
      var fields := Split(header.value, ' ');
      if |fields| >= 2 then Some(fields[1]) else None
  }

  /** `authenticateToken`: 401 without a token, 403 when verification fails,
      otherwise the request proceeds with the payload. */
  function Authenticate<U>(header: Option<string>, verify: string -> Option<U>): (d: Decision<U>)
    ensures var t := ExtractToken(header);
      && (t.None? || t.value == "" <==> d == Respond(401, ApiResponse(false, None, Some(TokenRequired), None)))
      && (t.Some? && t.value != "" && verify(t.value).None? <==>
            d == Respond(403, ApiResponse(false, None, Some(TokenInvalid), None)))
      && (d.Next? <==> t.Some? && t.value != "" && verify(t.value).Some?)
      && (d.Next? ==> d.user == verify(t.value).value)
  {
    var token := ExtractToken(header);
    if token.None? || token.value == "" then
      Respond(401, ApiResponse(false, None, Some(TokenRequired), None))
    else
      match verify(token.value)
      case None => Respond(403, ApiResponse(false, None, Some(TokenInvalid), None))
      case Some(user) => Next(user)
  }

  /** A header of the form the client sends, `"Bearer " + t`, yields `t` back
      for any token without spaces. */
  lemma BearerRoundTrip(t: string)
    requires ' ' !in t
    ensures ExtractToken(Some("Bearer " + t)) == Some(t)
  {
    SplitJoin(["Bearer", t], ' ');
    assert Join(["Bearer", t], " ") == "Bearer " + t;
  }

  /** A token with a space is cut at its first space: only the part before
      it reaches verification, whatever follows. */
  lemma SpaceCutsToken(a: string, b: string)
    requires ' ' !in a
    ensures ExtractToken(Some("Bearer " + a + " " + b)) == Some(a)
  {
    SplitSecondField("Bearer", a, b, ' ');
    assert "Bearer " + a + " " + b == "Bearer" + (" " + (a + (" " + b)));
  }
}

=== FILE: channel.dfy ===
/** The browser's API client (`frontend/src/services/api.ts`): one shared
    instance whose interceptors attach the bearer token, retry retryable
    failures against an instance-wide counter, and toast a message on the
    final failure; endpoint wrappers unwrap the `{success, data, error}`
    envelope. The server is a finite script of per-attempt outcomes. */
module Channel {
  import opened Wrappers
  import opened Strings
  import opened Types

  /** `maxRetries` of the client instance. */
  const MaxRetries: nat := 3

  const Unauthorized401 := "Authentication required. Please log in again."
  const Forbidden403 := "You do not have permission to perform this action."
  const NotFound404 := "The requested resource was not found."
  const ServerError5xx := "Server error. Please try again later."
  const TimeoutMessage := "Request timeout. Please check your connection and try again."
  const GenericMessage := "An unexpected error occurred. Please try again."

  /** A rejected attempt as the transport reports it: either a non-2xx response
      (its status and the `message` field of its body, if any) or an error
      code with no response. `message` is the transport's own error text. */
  datatype TransportError =
    | HttpError(status: int, bodyMessage: Option<string>, message: string)
    | CodeError(code: string, message: string)

  /** What one attempt yields: a 2xx response carrying an envelope, or a failure. */
  datatype Outcome<T> = Responded(response: ApiResponse<T>) | Failed(error: TransportError)

  /** The retry predicate: a 5xx status, a timeout or a network error. */
  predicate ShouldRetry(e: TransportError)
    ensures ShouldRetry(e) <==> KindOf(e) in {ServerError, Timeout, NetworkError}
  {
    match e
    case HttpError(status, _, _) => status >= 500
    case CodeError(code, _) => code == "ECONNABORTED" || code == "NETWORK_ERROR"
  }

  /** A body `message` counts only when present and non-empty. */
  predicate HasBodyMessage(e: TransportError)
  {
    e.HttpError? && e.bodyMessage.Some? && e.bodyMessage.value != ""
  }

  /** The toast text for a final failure, chosen by the first rule that applies. */
  function ErrorMessage(e: TransportError): (m: string)
    ensures m != ""
    ensures HasBodyMessage(e) ==> m == e.bodyMessage.value
    ensures !HasBodyMessage(e) ==> m == KindMessage(KindOf(e))
  {
    if HasBodyMessage(e) then e.bodyMessage.value
    else if e.HttpError? && e.status == 401 then Unauthorized401
    else if e.HttpError? && e.status == 403 then Forbidden403
    else if e.HttpError? && e.status == 404 then NotFound404
    else if e.HttpError? && e.status >= 500 then ServerError5xx
    else if e.CodeError? && e.code == "ECONNABORTED" then TimeoutMessage
    else GenericMessage
  }

  /** A failure taxonomy: an independent reading of the same inputs the
      retry predicate and the message chooser inspect. */
  datatype ErrorKind = Unauthorized | Forbidden | NotFound | ServerError | Timeout | NetworkError | Unknown

  function KindOf(e: TransportError): ErrorKind
  {
    match e
    case HttpError(status, _, _) =>
      if status == 401 then Unauthorized
      else if status == 403 then Forbidden
      else if status == 404 then NotFound
      else if status >= 500 then ServerError
      else Unknown
    case CodeError(code, _) =>
      if code == "ECONNABORTED" then Timeout
      else if code == "NETWORK_ERROR" then NetworkError
      else Unknown
  }

  function KindMessage(k: ErrorKind): string
  {
    match k
    case Unauthorized => Unauthorized401
    case Forbidden => Forbidden403
    case NotFound => NotFound404
    case ServerError => ServerError5xx
    case Timeout => TimeoutMessage
    case NetworkError => GenericMessage
    case Unknown => GenericMessage
  }

  /** The retry predicate and the message chooser agree with the taxonomy:
      exactly server errors, timeouts and network errors are retried, and the
      message is the body's own text when it has one, else the kind's fixed
      text. A network error is retried but has no fixed text of its own. */
  lemma ClassifierAgreesWithKinds(e: TransportError)
    ensures ShouldRetry(e) <==> KindOf(e) in {ServerError, Timeout, NetworkError}
    ensures !HasBodyMessage(e) ==> ErrorMessage(e) == KindMessage(KindOf(e))
    ensures HasBodyMessage(e) ==> ErrorMessage(e) == e.bodyMessage.value
    ensures KindOf(e) in {Unauthorized, Forbidden, NotFound} ==> !ShouldRetry(e)
  {
  }

  /** Session storage as the client sees it; `browser` is false during
      server-side rendering, when no storage exists. */
  datatype TokenStore = TokenStore(browser: bool, authToken: Option<string>)

  function GetAuthToken(store: TokenStore): Option<string>
  {
    if store.browser then store.authToken else None
  }

  /** The `Authorization` header the request interceptor adds, if any. */
  function AuthorizationHeader(store: TokenStore): (h: Option<string>)
    ensures h.Some? <==> store.browser && store.authToken.Some? && store.authToken.value != ""
    ensures h.Some? ==> h.value == "Bearer " + store.authToken.value
  {
    var token := GetAuthToken(store);
    if token.Some? && token.value != "" then Some("Bearer " + token.value) else None
  }

  /** The client instance's mutable state: the shared retry counter and storage. */
  datatype ClientState = ClientState(retryCount: nat, store: TokenStore)

  /** One logical request: its envelope or final transport error, how many
      attempts were made, the retry counter afterwards, and the toast shown. */
  datatype Reply<T> = Reply(
    result: Result<ApiResponse<T>, TransportError>,
    attempts: nat,
    retryCount: nat,
    toast: Option<string>)

  /** Enough scripted outcomes for the longest possible run of attempts. */
  predicate ScriptCovers<T>(retryCount: nat, script: seq<Outcome<T>>)
  {
    0 < |script| && MaxRetries - retryCount < |script|
  }

  /** The interceptor semantics: a delivered response resets the counter; a
      failure is retried while it is retryable and the counter is below the
      ceiling (incrementing it), and otherwise is toasted and rejected without
      touching the counter. */
  function Exchange<T>(retryCount: nat, script: seq<Outcome<T>>): (x: Reply<T>)
    requires ScriptCovers(retryCount, script)
    ensures 1 <= x.attempts <= |script|
    ensures forall i :: 0 <= i < x.attempts - 1 ==> script[i].Failed? && ShouldRetry(script[i].error)
    ensures x.attempts - 1 <= if retryCount <= MaxRetries then MaxRetries - retryCount else 0
    ensures x.result.Ok? <==> script[x.attempts - 1].Responded?
    ensures x.result.Ok? ==> x.result.value == script[x.attempts - 1].response
    ensures x.result.Ok? ==> x.retryCount == 0 && x.toast.None?
    ensures x.result.Err? ==> x.result.error == script[x.attempts - 1].error
    ensures x.result.Err? ==> x.retryCount == retryCount + x.attempts - 1
    ensures x.result.Err? ==> x.toast == Some(ErrorMessage(x.result.error))
    ensures x.result.Err? ==> !ShouldRetry(x.result.error) || x.retryCount >= MaxRetries
    ensures retryCount <= MaxRetries ==> x.retryCount <= MaxRetries
    decreases |script|
  {
    match script[0]
    case Responded(response) => Reply(Ok(response), 1, 0, None)
    case Failed(e) =>
      if ShouldRetry(e) && retryCount < MaxRetries then
        var x := Exchange(retryCount + 1, script[1..]);
        x.(attempts := x.attempts + 1)
      else
        Reply(Err(e), 1, retryCount, Some(ErrorMessage(e)))
  }

  /** The same exchange as a loop over attempts, as the interceptor re-issues
      the request. */
  method Request<T>(retryCount: nat, script: seq<Outcome<T>>) returns (reply: Reply<T>)
    requires ScriptCovers(retryCount, script)
    ensures reply == Exchange(retryCount, script)
  {
    var count := retryCount;
    var i := 0;
    while true
      invariant 0 <= i < |script|
      invariant count == retryCount + i
      invariant ScriptCovers(count, script[i..])
      invariant Exchange(retryCount, script) == Later(Exchange(count, script[i..]), i)
      decreases |script| - i
    {
      match script[i]
      case Responded(response) =>
        return Reply(Ok(response), i + 1, 0, None);
      case Failed(e) =>
        if ShouldRetry(e) && count < MaxRetries {
          RetryStep(count, script[i..]);
          assert script[i..][1..] == script[i + 1..];
          count := count + 1;
          i := i + 1;
        } else {
          return Reply(Err(e), i + 1, count, Some(ErrorMessage(e)));
        }
    }
  }

  /** A reply shifted by `k` earlier attempts. */
  function Later<T>(x: Reply<T>, k: nat): Reply<T>
  {
    x.(attempts := x.attempts + k)
  }

  /** One retried failure: the rest of the exchange runs one step later. */
  lemma RetryStep<T>(count: nat, s: seq<Outcome<T>>)
    requires ScriptCovers(count, s) && s[0].Failed? && ShouldRetry(s[0].error) && count < MaxRetries
    ensures ScriptCovers(count + 1, s[1..])
    ensures Exchange(count, s) == Later(Exchange(count + 1, s[1..]), 1)
  {
  }

  /** How an endpoint call failed: the transport rejected it, or the envelope
      did not carry what the endpoint needs (thrown with the envelope's error). */
  datatype ClientError = Transport(error: TransportError) | Rejected(message: string)

  /** The text of the thrown error, as a caller's `error.message` reads it. */
  function ErrorText(e: ClientError): string
  {
    match e
    case Transport(t) => t.message
    case Rejected(m) => m
  }

  /** A data endpoint's check: the payload when `success` and `data` are both
      present, otherwise the envelope's error or the endpoint's fallback text. */
  function UnwrapData<T>(response: ApiResponse<T>, fallback: string): (r: Result<T, string>)
    ensures r.Ok? <==> response.success && response.data.Some?
    ensures r.Ok? ==> r.value == response.data.value
    ensures r.Err? && response.error.Some? && response.error.value != "" ==> r.error == response.error.value
    ensures r.Err? && (response.error.None? || response.error.value == "") ==> r.error == fallback
  {
    if response.success && response.data.Some? then Ok(response.data.value)
    else Err(OptOrElse(response.error, fallback))
  }

  /** A void endpoint's check: only `success` matters. */
  function UnwrapVoid<T>(response: ApiResponse<T>, fallback: string): (r: Result<(), string>)
    ensures r.Ok? <==> response.success
    ensures r.Err? ==> r.error == OptOrElse(response.error, fallback)
  {
    if response.success then Ok(()) else Err(OptOrElse(response.error, fallback))
  }

  /** The outcome of an endpoint call and the client state it leaves behind. */
  datatype Call<R> = Call(state: ClientState, result: Result<R, ClientError>, attempts: nat, toast: Option<string>)

  /** What a data call leaves, read off the exchange it made: the shared
      counter and the attempt count of that exchange, its toast, and a result
      that is the delivered payload, the transport failure itself, or the
      envelope's `error` (or the fallback) for a refused envelope. */
  ghost predicate IsDataCall<T>(state: ClientState, script: seq<Outcome<T>>, fallback: string, c: Call<T>)
    requires ScriptCovers(state.retryCount, script)
  {
    var x := Exchange(state.retryCount, script);
    && c.state == state.(retryCount := x.retryCount)
    && c.attempts == x.attempts
    && c.toast == x.toast
    && (x.result.Err? ==> c.result == Err(Transport(x.result.error)))
    && (x.result.Ok? && x.result.value.success && x.result.value.data.Some? ==>
          c.result == Ok(x.result.value.data.value))
    && (x.result.Ok? && !(x.result.value.success && x.result.value.data.Some?) ==>
          c.result == Err(Rejected(OptOrElse(x.result.value.error, fallback))))
  }

  /** The same for a void call, where only `success` decides. */
  ghost predicate IsVoidCall<T>(state: ClientState, script: seq<Outcome<T>>, fallback: string, c: Call<()>)
    requires ScriptCovers(state.retryCount, script)
  {
    var x := Exchange(state.retryCount, script);
    && c.state == state.(retryCount := x.retryCount)
    && c.attempts == x.attempts
    && c.toast == x.toast
    && (x.result.Err? ==> c.result == Err(Transport(x.result.error)))
    && (x.result.Ok? && x.result.value.success ==> c.result == Ok(()))
    && (x.result.Ok? && !x.result.value.success ==>
          c.result == Err(Rejected(OptOrElse(x.result.value.error, fallback))))
  }

  /** A data endpoint (`getMenu`, `createOrder`, `login`, ...). */
  function CallData<T>(state: ClientState, script: seq<Outcome<T>>, fallback: string): (c: Call<T>)
    requires ScriptCovers(state.retryCount, script)
    ensures IsDataCall(state, script, fallback, c)
    ensures c.state.store == state.store
    ensures c.toast.Some? <==> c.result.Err? && c.result.error.Transport?
    ensures c.result.Ok? <==>
      var x := Exchange(state.retryCount, script);
      x.result.Ok? && x.result.value.success && x.result.value.data.Some?
    ensures c.result.Ok? ==> c.result.value == script[c.attempts - 1].response.data.value
  {
    var x := Exchange(state.retryCount, script);
    var next := state.(retryCount := x.retryCount);
    match x.result
    case Err(e) => Call(next, Err(Transport(e)), x.attempts, x.toast)
    case Ok(response) =>
      match UnwrapData(response, fallback)
      case Ok(data) => Call(next, Ok(data), x.attempts, None)
      case Err(m) => Call(next, Err(Rejected(m)), x.attempts, None)
  }

  /** A void endpoint (`cancelOrder`, `lockMealSlot`, ...). */
  function CallVoid<T>(state: ClientState, script: seq<Outcome<T>>, fallback: string): (c: Call<()>)
    requires ScriptCovers(state.retryCount, script)
    ensures IsVoidCall(state, script, fallback, c)
    ensures c.state.store == state.store
    ensures c.toast.Some? <==> c.result.Err? && c.result.error.Transport?
    ensures c.result.Ok? <==>
      var x := Exchange(state.retryCount, script);
      x.result.Ok? && x.result.value.success
  {
    var x := Exchange(state.retryCount, script);
    var next := state.(retryCount := x.retryCount);
    match x.result
    case Err(e) => Call(next, Err(Transport(e)), x.attempts, x.toast)
    case Ok(response) =>
      match UnwrapVoid(response, fallback)
      case Ok(_) => Call(next, Ok(()), x.attempts, None)
      case Err(m) => Call(next, Err(Rejected(m)), x.attempts, None)
  }

  type QueryParam = (string, string)

  /** The `getMenu` query: the three required parameters, plus the dietary
      tags comma-joined whenever a list is given (an empty list sends ""). */
  function MenuQuery(flightNumber: string, date: string, cabinClass: string, dietary: Option<seq<string>>): (q: seq<QueryParam>)
    ensures |q| == if dietary.Some? then 4 else 3
    ensures q[0] == ("flightNumber", flightNumber) && q[1] == ("date", date) && q[2] == ("cabinClass", cabinClass)
    ensures dietary.Some? ==> q[3] == ("dietaryRestrictions", Join(dietary.value, ","))
  {
    [("flightNumber", flightNumber), ("date", date), ("cabinClass", cabinClass)]
      + (if dietary.Some? then [("dietaryRestrictions", Join(dietary.value, ","))] else [])
  }

  /** `getMenu`: a data call whose rejection text defaults to "Failed to fetch menu". */
  function GetMenu(state: ClientState, script: seq<Outcome<MenuResponse>>): (c: Call<MenuResponse>)
    requires ScriptCovers(state.retryCount, script)
    ensures IsDataCall(state, script, "Failed to fetch menu", c)
    ensures c.result.Ok? <==>
      var x := Exchange(state.retryCount, script);
      x.result.Ok? && x.result.value.success && x.result.value.data.Some?
  {
    CallData(state, script, "Failed to fetch menu")
  }

  /** `createOrder`: a data call whose rejection text defaults to "Failed to create order". */
  function CreateOrder(state: ClientState, script: seq<Outcome<Order>>): (c: Call<Order>)
    requires ScriptCovers(state.retryCount, script)
    ensures IsDataCall(state, script, "Failed to create order", c)
    ensures c.result.Ok? <==>
      var x := Exchange(state.retryCount, script);
      x.result.Ok? && x.result.value.success && x.result.value.data.Some?
  {
    CallData(state, script, "Failed to create order")
  }

  /** `cancelOrder`: a void call whose rejection text defaults to "Failed to cancel order". */
  function CancelOrder(state: ClientState, script: seq<Outcome<()>>): (c: Call<()>)
    requires ScriptCovers(state.retryCount, script)
    ensures IsVoidCall(state, script, "Failed to cancel order", c)
    ensures c.result.Ok? <==>
      var x := Exchange(state.retryCount, script);
      x.result.Ok? && x.result.value.success
  {
    CallVoid(state, script, "Failed to cancel order")
  }

  /** `login`: on success the returned token is written to storage (when storage exists). */
  function Login(state: ClientState, script: seq<Outcome<LoginData>>): (c: Call<LoginData>)
    requires ScriptCovers(state.retryCount, script)
    ensures c.result.Ok? && state.store.browser ==> c.state.store.authToken == Some(c.result.value.token)
    ensures c.result.Err? ==> c.state.store == state.store
    ensures !(c.result.Ok? && state.store.browser) ==> c.state.store == state.store
    ensures c.result == CallData(state, script, "Login failed").result
    ensures var d := CallData(state, script, "Login failed");
      c.state.retryCount == d.state.retryCount && c.attempts == d.attempts && c.toast == d.toast
  {
    var c := CallData(state, script, "Login failed");
    if c.result.Ok? && state.store.browser then
      c.(state := c.state.(store := c.state.store.(authToken := Some(c.result.value.token))))
    else c
  }

  /** `logout`: any failure of the request is swallowed, and the token is
      removed from storage either way. The request still goes through the
      retry interceptor: it spends the shared counter and a final failure is
      still toasted. */
  function Logout(state: ClientState, script: seq<Outcome<()>>): (c: Call<()>)
    requires ScriptCovers(state.retryCount, script)
    ensures c.result.Ok?
    ensures state.store.browser ==> c.state.store.authToken.None?
    ensures state.store.browser ==> c.state.store == state.store.(authToken := None)
    ensures !state.store.browser ==> c.state.store == state.store
    ensures AuthorizationHeader(c.state.store).None?
    ensures var x := Exchange(state.retryCount, script);
      c.state.retryCount == x.retryCount && c.attempts == x.attempts && c.toast == x.toast
  {
    var x := Exchange(state.retryCount, script);
    var store := if state.store.browser then state.store.(authToken := None) else state.store;
    Call(ClientState(x.retryCount, store), Ok(()), x.attempts, x.toast)
  }

  // ----- Retry properties -----

  predicate AlwaysRetryable<T>(script: seq<Outcome<T>>)
  {
    forall i :: 0 <= i < |script| ==> script[i].Failed? && ShouldRetry(script[i].error)
  }

  /** From a fresh counter, a request that keeps failing retryably is tried
      1 + MaxRetries = 4 times, then rejected with an exhausted counter. */
  lemma {:induction false} PersistentFailureAttemptsFour<T>(script: seq<Outcome<T>>)
    requires ScriptCovers(0, script) && AlwaysRetryable(script)
    ensures Exchange(0, script).attempts == 1 + MaxRetries
    ensures Exchange(0, script).result.Err?
    ensures Exchange(0, script).retryCount == MaxRetries
  {
    var x := Exchange(0, script);
    assert x.result.Err? by {
      assert script[x.attempts - 1].Failed?;
    }
    assert ShouldRetry(x.result.error);
  }

  /** The counter is shared: once a call has exhausted it, the next call that
      fails retryably is rejected after a single attempt. */
  lemma ExhaustedCounterGivesNoRetry<T>(retryCount: nat, script: seq<Outcome<T>>)
    requires retryCount >= MaxRetries && ScriptCovers(retryCount, script)
    requires script[0].Failed?
    ensures Exchange(retryCount, script).attempts == 1
    ensures Exchange(retryCount, script).result == Err(script[0].error)
    ensures Exchange(retryCount, script).retryCount == retryCount
  {
  }

  /** A non-retryable failure such as 401, 403 or 404 is rejected after one
      attempt and toasted once, whatever the counter. */
  lemma NonRetryableFailsOnce<T>(retryCount: nat, script: seq<Outcome<T>>)
    requires ScriptCovers(retryCount, script)
    requires script[0].Failed? && !ShouldRetry(script[0].error)
    ensures Exchange(retryCount, script).attempts == 1
    ensures Exchange(retryCount, script).toast == Some(ErrorMessage(script[0].error))
    ensures Exchange(retryCount, script).retryCount == retryCount
  {
  }

  /** Two 503s and then a success: three attempts, the payload, a reset counter. */
  lemma TwoServerErrorsThenSuccess<T>(e1: TransportError, e2: TransportError, response: ApiResponse<T>, script: seq<Outcome<T>>)
    requires e1.HttpError? && e1.status == 503 && e2.HttpError? && e2.status == 503
    requires |script| == 4 && script[0] == Failed(e1) && script[1] == Failed(e2) && script[2] == Responded(response)
    ensures Exchange(0, script).attempts == 3
    ensures Exchange(0, script).result == Ok(response)
    ensures Exchange(0, script).retryCount == 0
  {
    assert script[1..][1..] == script[2..];
  }

  /** After a successful login in a browser with a non-empty token, every
      later request carries that token as its bearer header. */
  lemma LoginThenBearerHeader(state: ClientState, script: seq<Outcome<LoginData>>)
    requires ScriptCovers(state.retryCount, script) && state.store.browser
    requires Login(state, script).result.Ok? && Login(state, script).result.value.token != ""
    ensures AuthorizationHeader(Login(state, script).state.store)
            == Some("Bearer " + Login(state, script).result.value.token)
  {
  }

  /** The counter is carried from call to call: a data call that keeps
      failing retryably from a fresh counter leaves it at 3, and the next
      call that fails on that state is rejected after one attempt. */
  lemma SharedCounterAcrossCalls<T, U>(state: ClientState, first: seq<Outcome<T>>, second: seq<Outcome<U>>,
                                      fallback1: string, fallback2: string)
    requires state.retryCount == 0 && ScriptCovers(0, first) && AlwaysRetryable(first)
    requires ScriptCovers(MaxRetries, second) && second[0].Failed?
    ensures CallData(state, first, fallback1).attempts == 1 + MaxRetries
    ensures CallData(state, first, fallback1).state.retryCount == MaxRetries
    ensures CallData(CallData(state, first, fallback1).state, second, fallback2).attempts == 1
    ensures CallData(CallData(state, first, fallback1).state, second, fallback2).result
            == Err(Transport(second[0].error))
  {
    PersistentFailureAttemptsFour(first);
    ExhaustedCounterGivesNoRetry(MaxRetries, second);
  }
}

=== FILE: error_handler.dfy ===
/** The server's error middleware (`backend/src/middleware/errorHandler.js`).
    An incoming error is either an `ApiError` the application built or some
    other thrown value, inspected by duck-typed fields. Seven conversions run
    one after another, each on the result of the previous; the survivor is
    turned into an `ApiError` and rendered as the response. */
module ErrorHandler {
  import opened Wrappers
  import opened Strings

  /** `new ApiError(statusCode, message, isOperational)`; operational by default. */
  datatype ApiError = ApiError(statusCode: int, message: string, isOperational: bool)

  datatype FieldError = FieldError(field: string, message: string)

  /** A thrown value. For `Other`, the fields are what the handler reads:
      `errors` (a validation error's per-field messages), `path`/`value` (a
      cast error's), `code`, `details` (a Joi error's), and the upstream
      response status and body message of an HTTP-client error. */
  datatype ThrownError =
    | Api(api: ApiError)
    | Other(
        name: string,
        message: string,
        statusCode: Option<int>,
        code: Option<int>,
        errors: Option<seq<FieldError>>,
        path: string,
        value: string,
        isJoi: bool,
        details: Option<seq<string>>,
        isAxiosError: bool,
        upstreamStatus: Option<int>,
        upstreamMessage: Option<string>)

  /** An `ApiError` is an `Error` whose name is inherited, "Error", and which
      has no `code`, `isJoi` or `isAxiosError`. */
  function NameOf(e: ThrownError): string
  {
    if e.Api? then "Error" else e.name
  }

  function CodeOf(e: ThrownError): Option<int>
  {
    if e.Api? then None else e.code
  }

  predicate IsJoi(e: ThrownError)
  {
    e.Other? && e.isJoi
  }

  predicate IsAxios(e: ThrownError)
  {
    e.Other? && e.isAxiosError
  }

  /** `new ApiError(status, message)`. */
  function Convert(statusCode: int, message: string): ThrownError
  {
    Api(ApiError(statusCode, message, true))
  }

  /** The state between conversions: an error, or the handler itself threw
      (reading `errors` or `details` that are absent). */
  datatype Stage = Continue(e: ThrownError) | Crashed

  function FieldMessages(errors: seq<FieldError>): (ms: seq<string>)
    ensures |ms| == |errors|
    ensures forall i :: 0 <= i < |errors| ==> ms[i] == errors[i].message
  {
    seq(|errors|, i requires 0 <= i < |errors| => errors[i].message)
  }

  const DuplicateField := "Duplicate field value entered"
  const InvalidToken := "Invalid token. Please log in again!"
  const ExpiredToken := "Token expired. Please log in again!"
  const DatabaseFailed := "Database operation failed"
  const ExternalFailed := "External API request failed"
  const InternalError := "Internal Server Error"

  function ValidationStep(s: Stage): Stage
  {
    if s.Crashed? || NameOf(s.e) != "ValidationError" then s
    else if s.e.errors.None? then Crashed
    else Continue(Convert(400, Join(FieldMessages(s.e.errors.value), ", ")))
  }

  function CastStep(s: Stage): Stage
  {
    if s.Crashed? || NameOf(s.e) != "CastError" then s
    else Continue(Convert(400, "Invalid " + s.e.path + ": " + s.e.value))
  }

  function DuplicateStep(s: Stage): Stage
  {
    if s.Crashed? || CodeOf(s.e) != Some(11000) then s
    else Continue(Convert(400, DuplicateField))
  }

  function JwtStep(s: Stage): Stage
  {
    if s.Crashed? || NameOf(s.e) != "JsonWebTokenError" then s
    else Continue(Convert(401, InvalidToken))
  }

  function ExpiredStep(s: Stage): Stage
  {
    if s.Crashed? || NameOf(s.e) != "TokenExpiredError" then s
    else Continue(Convert(401, ExpiredToken))
  }

  function MongoStep(s: Stage): Stage
  {
    if s.Crashed? || NameOf(s.e) != "MongoError" then s
    else Continue(Convert(500, DatabaseFailed))
  }

  function JoiStep(s: Stage): Stage
  {
    if s.Crashed? || !IsJoi(s.e) then s
    else if s.e.details.None? then Crashed
    else Continue(Convert(400, Join(s.e.details.value, ", ")))
  }

  function AxiosStep(s: Stage): Stage
  {
    if s.Crashed? || !IsAxios(s.e) then s
    else
      var status := if s.e.upstreamStatus.Some? && s.e.upstreamStatus.value != 0 then s.e.upstreamStatus.value else 500;
      Continue(Convert(status, OptOrElse(s.e.upstreamMessage, ExternalFailed)))
  }

  /** The seven conversions in source order, each applied to the previous result. */
  function Conversions(e: ThrownError): Stage
  {
    AxiosStep(JoiStep(MongoStep(ExpiredStep(JwtStep(DuplicateStep(CastStep(ValidationStep(Continue(e)))))))))
  }

  /** The ordered table read as "first matching rule wins": the independent
      reference the sequential conversions are proved against. */
  function FirstMatch(e: ThrownError): Stage
  {
    if NameOf(e) == "ValidationError" then ValidationStep(Continue(e))
    else if NameOf(e) == "CastError" then CastStep(Continue(e))
    else if CodeOf(e) == Some(11000) then DuplicateStep(Continue(e))
    else if NameOf(e) == "JsonWebTokenError" then JwtStep(Continue(e))
    else if NameOf(e) == "TokenExpiredError" then ExpiredStep(Continue(e))
    else if NameOf(e) == "MongoError" then MongoStep(Continue(e))
    else if IsJoi(e) then JoiStep(Continue(e))
    else if IsAxios(e) then AxiosStep(Continue(e))
    else Continue(e)
  }

  /** A converted error matches no rule, so every later step leaves it alone. */
  lemma ConvertedMatchesNoRule(status: int, message: string)
    ensures var c := Convert(status, message);
      && NameOf(c) !in {"ValidationError", "CastError", "JsonWebTokenError", "TokenExpiredError", "MongoError"}
      && CodeOf(c).None? && !IsJoi(c) && !IsAxios(c)
  {
  }

  /** At most one conversion fires: running the steps in sequence is the
      same as applying only the first rule that matches. */
  lemma ConversionsAreFirstMatch(e: ThrownError)
    ensures Conversions(e) == FirstMatch(e)
  {
  }

  /** The debugging fields added in development. */
  datatype DebugInfo = DebugInfo(path: string, verb: string)

  /** The JSON error body. `message` appears only in the handler's own
      fallback answer. */
  datatype ErrorBody = ErrorBody(success: bool, error: string, message: Option<string>, debug: Option<DebugInfo>)

  datatype ErrorResponse = ErrorResponse(status: int, body: ErrorBody)

  /** The final `ApiError`: an `ApiError` passes through; anything else takes
      its own status (or 500) and message (or a default) and is marked
      non-operational. */
  function Finalize(e: ThrownError): (a: ApiError)
    ensures e.Api? ==> a == e.api
    ensures e.Other? ==> !a.isOperational
    ensures e.Other? && e.statusCode.Some? && e.statusCode.value != 0 ==> a.statusCode == e.statusCode.value
    ensures e.Other? && (e.statusCode.None? || e.statusCode.value == 0) ==> a.statusCode == 500
    ensures e.Other? ==> a.message == OrElse(e.message, InternalError)
  {
    match e
    case Api(api) => api
    case Other(_, message, statusCode, _, _, _, _, _, _, _, _, _) =>
      var status := if statusCode.Some? && statusCode.value != 0 then statusCode.value else 500;
      ApiError(status, OrElse(message, InternalError), false)
  }

  const FallbackMessage := "An unexpected error occurred"

  /** `errorHandler`: convert, finalize, answer with the final status and
      message; `nodeEnv` decides whether debugging fields are added. If the
      handler itself throws, the fixed 500 fallback is sent instead. */
  function HandleError(e: ThrownError, nodeEnv: string, path: string, verb: string): (r: ErrorResponse)
    ensures !r.body.success
    ensures Conversions(e).Crashed? ==>
      r == ErrorResponse(500, ErrorBody(false, InternalError, Some(FallbackMessage), None))
    ensures Conversions(e).Continue? ==>
      var a := Finalize(Conversions(e).e);
      && r.status == a.statusCode
      && r.body.error == a.message
      && r.body.message.None?
      && (r.body.debug.Some? <==> nodeEnv == "development")
      && (nodeEnv == "development" ==> r.body.debug == Some(DebugInfo(path, verb)))
  {
    match Conversions(e)
    case Crashed => ErrorResponse(500, ErrorBody(false, InternalError, Some(FallbackMessage), None))
    case Continue(c) =>
      var a := Finalize(c);
      var debug := if nodeEnv == "development" then Some(DebugInfo(path, verb)) else None;
      ErrorResponse(a.statusCode, ErrorBody(false, a.message, None, debug))
  }

  /** `notFound`: the 404 error for an unmatched URL. */
  function NotFound(url: string): (e: ThrownError)
    ensures e.Api? && e.api.statusCode == 404 && e.api.isOperational
    ensures e.api.message == "Route " + url + " not found"
  {
    Api(ApiError(404, "Route " + url + " not found", true))
  }

  /** An unmatched URL is answered 404 with its own message, in any environment. */
  lemma NotFoundAnswers404(url: string, nodeEnv: string, verb: string)
    ensures HandleError(NotFound(url), nodeEnv, url, verb).status == 404
    ensures HandleError(NotFound(url), nodeEnv, url, verb).body.error == "Route " + url + " not found"
  {
    ConversionsAreFirstMatch(NotFound(url));
  }

  /** A validation error with field messages answers 400 with them joined by ", ". */
  lemma ValidationAnswers400(e: ThrownError, nodeEnv: string, path: string, verb: string)
    requires e.Other? && e.name == "ValidationError" && e.errors.Some?
    ensures HandleError(e, nodeEnv, path, verb).status == 400
    ensures HandleError(e, nodeEnv, path, verb).body.error == Join(FieldMessages(e.errors.value), ", ")
  {
    ConversionsAreFirstMatch(e);
  }

  /** A cast error that also carries the duplicate-key code is still reported
      as a cast error: the later rule never sees the original error. */
  lemma CastWinsOverDuplicateCode(e: ThrownError)
    requires e.Other? && e.name == "CastError" && e.code == Some(11000)
    ensures Conversions(e) == Continue(Convert(400, "Invalid " + e.path + ": " + e.value))
  {
    ConversionsAreFirstMatch(e);
  }
}

=== FILE: interop.dfy ===
/** How the browser client and the server routes fit together: the bearer
    header one side writes and the other parses, the dietary tags one side
    joins and the other splits, the cart total against the order total, and
    what the client shows for the routes' error answers. */
module Interop {
  import opened Wrappers
  import opened Strings
  import opened Types
  import Channel
  import MenuPage
  import MenuRoute
  import OrderRoute
  import Auth

  /** The transport's view of a route's answer: 2xx delivers the envelope,
      anything else fails with the status and the body's `message` field. */
  function Deliver<T>(r: HttpResponse<T>, transportMessage: string): (o: Channel.Outcome<T>)
    ensures 200 <= r.status < 300 <==> o.Responded?
    ensures o.Responded? ==> o.response == r.body
    ensures o.Failed? ==> o.error == Channel.HttpError(r.status, r.body.message, transportMessage)
  {
    if 200 <= r.status < 300 then Channel.Responded(r.body)
    else Channel.Failed(Channel.HttpError(r.status, r.body.message, transportMessage))
  }

  /** The first value given for `key` in a query. */
  function Lookup(params: seq<Channel.QueryParam>, key: string): (v: Option<string>)
    ensures v.Some? ==> (key, v.value) in params
    ensures v.None? ==> forall i :: 0 <= i < |params| ==> params[i].0 != key
    decreases |params|
  {
    if |params| == 0 then None
    else if params[0].0 == key then Some(params[0].1)
    else Lookup(params[1..], key)
  }

  /** The query as the menu route reads it. */
  function ServerQuery(params: seq<Channel.QueryParam>): MenuRoute.MenuQuery
  {
    MenuRoute.MenuQuery(Lookup(params, "flightNumber"), Lookup(params, "date"),
                        Lookup(params, "cabinClass"), Lookup(params, "dietaryRestrictions"))
  }

  /** The route reads back every parameter the client wrote, the tags as
      their comma-joined string, and no tags when none were sent. */
  lemma ServerReadsClientQuery(flightNumber: string, date: string, cabin: string, dietary: Option<seq<string>>)
    ensures ServerQuery(Channel.MenuQuery(flightNumber, date, cabin, dietary)) ==
      MenuRoute.MenuQuery(Some(flightNumber), Some(date), Some(cabin),
                          if dietary.Some? then Some(Join(dietary.value, ",")) else None)
  {
    var q := Channel.MenuQuery(flightNumber, date, cabin, dietary);
    assert q[1..][1..][1..] == if dietary.Some? then [q[3]] else [];
    assert Lookup(q, "date") == Some(date) by { assert q[0].0 != "date"; }
    assert Lookup(q, "cabinClass") == Some(cabin) by {
      assert q[0].0 != "cabinClass" && q[1].0 != "cabinClass";
      assert q[1..][1..][0] == q[2];
    }
    assert q[0].0 != "dietaryRestrictions" && q[1].0 != "dietaryRestrictions" && q[2].0 != "dietaryRestrictions";
    if dietary.Some? {
      assert q[1..][1..][1..][0] == q[3];
    } else {
      assert q[1..][1..][1..] == [];
    }
  }

  // ----- Bearer header -----

  /** A stored token without spaces reaches verification unchanged: the
      middleware answers 403 or proceeds exactly as `verify` decides on it. */
  lemma StoredTokenReachesVerification<U>(store: Channel.TokenStore, verify: string -> Option<U>)
    requires store.browser && store.authToken.Some? && store.authToken.value != ""
    requires ' ' !in store.authToken.value
    ensures Auth.ExtractToken(Channel.AuthorizationHeader(store)) == store.authToken
    ensures var d := Auth.Authenticate(Channel.AuthorizationHeader(store), verify);
      && (verify(store.authToken.value).Some? ==> d == Auth.Next(verify(store.authToken.value).value))
      && (verify(store.authToken.value).None? ==> d.Respond? && d.status == 403)
  {
    Auth.BearerRoundTrip(store.authToken.value);
  }

  /** Without a usable stored token no header is sent and the middleware answers 401. */
  lemma NoTokenIsRejected401<U>(store: Channel.TokenStore, verify: string -> Option<U>)
    requires !store.browser || store.authToken.None? || store.authToken.value == ""
    ensures Auth.Authenticate(Channel.AuthorizationHeader(store), verify)
            == Auth.Respond(401, ApiResponse(false, None, Some(Auth.TokenRequired), None))
  {
  }

  /** Creating an order without a token: the 401 is not retried, the client
      makes one attempt and toasts its fixed log-in text, not the server's
      `error` string, and the page's cart is kept. */
  lemma OrderWithoutTokenFailsOnce(page: MenuPage.PageState, verify: string -> Option<OrderRoute.Claims>,
                                   transportMessage: string, script: seq<Channel.Outcome<Order>>)
    requires !page.client.store.browser || page.client.store.authToken.None?
    requires |page.cart.items| > 0 && page.selectedMealSlot != ""
    requires Channel.ScriptCovers(page.client.retryCount, script)
    requires script[0] == Deliver(HttpResponse(401, ApiResponse(false, None, Some(Auth.TokenRequired), None)), transportMessage)
    ensures Auth.Authenticate(Channel.AuthorizationHeader(page.client.store), verify).status == 401
    ensures MenuPage.PlaceOrder(page, script).attempts == 1
    ensures MenuPage.PlaceOrder(page, script).page.cart == page.cart
    ensures MenuPage.PlaceOrder(page, script).toasts ==
            [Channel.Unauthorized401, OrElse(transportMessage, MenuPage.PlaceFailedFallback)]
  {
    Channel.NonRetryableFailsOnce(page.client.retryCount, script);
  }

  // ----- Dietary tags -----

  /** The tags the client joins with commas are the tags the route splits
      back out, for a non-empty list of comma-free tags. */
  lemma DietaryRoundTrip(tags: seq<string>)
    requires |tags| >= 1 && forall i :: 0 <= i < |tags| ==> ',' !in tags[i]
    ensures Split(Join(tags, ","), ',') == tags
  {
    SplitJoin(tags, ',');
  }

  /** A menu request with comma-free tags (that do not join to the empty
      string) reaches the route as their joined string and is served exactly
      the fixed items of the cabin that carry one of those tags. */
  lemma {:induction false} MenuRequestHonoursTags(flightNumber: string, date: string, cabin: string, tags: seq<string>)
    requires flightNumber != "" && date != "" && cabin != ""
    requires |tags| >= 1 && forall i :: 0 <= i < |tags| ==> ',' !in tags[i]
    requires Join(tags, ",") != ""
    ensures ServerQuery(Channel.MenuQuery(flightNumber, date, cabin, Some(tags)))
            == MenuRoute.MenuQuery(Some(flightNumber), Some(date), Some(cabin), Some(Join(tags, ",")))
    ensures var r := MenuRoute.GetMenu(MenuRoute.MenuQuery(Some(flightNumber), Some(date), Some(cabin), Some(Join(tags, ","))));
      && r.status == 200 && r.body.data.Some?
      && forall x :: x in r.body.data.value.menu <==>
           x in MenuRoute.MockMenu && x.cabinClass == cabin && SomeIn(tags, x.dietaryCategories)
  {
    ServerReadsClientQuery(flightNumber, date, cabin, Some(tags));
    DietaryRoundTrip(tags);
    ServedForTags(flightNumber, date, cabin, Join(tags, ","), tags);
  }

  /** The route's answer for a dietary value that splits into `tags`. */
  lemma {:induction false} ServedForTags(flightNumber: string, date: string, cabin: string, joined: string, tags: seq<string>)
    requires flightNumber != "" && date != "" && cabin != "" && joined != ""
    requires Split(joined, ',') == tags
    ensures var r := MenuRoute.GetMenu(MenuRoute.MenuQuery(Some(flightNumber), Some(date), Some(cabin), Some(joined)));
      && r.status == 200 && r.body.data.Some?
      && forall x :: x in r.body.data.value.menu <==>
           x in MenuRoute.MockMenu && x.cabinClass == cabin && SomeIn(tags, x.dietaryCategories)
  {
  }

  /** The page's initial empty tag list is still sent, as an empty value,
      and the route then applies no dietary filter. */
  lemma EmptyTagListFiltersNothing(flightNumber: string, date: string, cabin: string)
    requires flightNumber != "" && date != "" && cabin != ""
    ensures var r := MenuRoute.GetMenu(ServerQuery(Channel.MenuQuery(flightNumber, date, cabin, Some([]))));
      && r.status == 200 && r.body.data.Some?
      && forall x :: x in r.body.data.value.menu <==> x in MenuRoute.MockMenu && x.cabinClass == cabin
  {
    ServerReadsClientQuery(flightNumber, date, cabin, Some([]));
    var q := ServerQuery(Channel.MenuQuery(flightNumber, date, cabin, Some([])));
    assert Join([], ",") == "";
    assert !MenuRoute.Truthy(q.dietaryRestrictions);
  }

  /** An empty required parameter is answered 400; the client does not retry,
      and its toast is the generic text: the route's explanation travels in
      `error`, which the client never reads. */
  lemma MissingParameterShowsGenericToast(date: string, cabin: string, retryCount: nat,
                                          transportMessage: string, script: seq<Channel.Outcome<MenuResponse>>)
    requires Channel.ScriptCovers(retryCount, script)
    requires script[0] == Deliver(MenuRoute.GetMenu(ServerQuery(Channel.MenuQuery("", date, cabin, None))), transportMessage)
    ensures Channel.Exchange(retryCount, script).attempts == 1
    ensures Channel.Exchange(retryCount, script).toast == Some(Channel.GenericMessage)
  {
    ServerReadsClientQuery("", date, cabin, None);
    Channel.NonRetryableFailsOnce(retryCount, script);
  }

  // ----- Cart total against order total -----

  /** The cart lines as the order route receives them. */
  function AsRequest(items: seq<OrderItem>): (r: seq<OrderRoute.RequestItem>)
    ensures |r| == |items|
    ensures forall i :: 0 <= i < |items| ==>
      r[i] == OrderRoute.RequestItem(items[i].menuItemId, items[i].quantity, items[i].specialInstructions, Some(items[i].price))
  {
    seq(|items|, i requires 0 <= i < |items| =>
      OrderRoute.RequestItem(items[i].menuItemId, items[i].quantity, items[i].specialInstructions, Some(items[i].price)))
  }

  /** When no line is free, the order's total equals the cart total the page showed. */
  lemma {:induction false} OrderTotalMatchesCart(items: seq<OrderItem>)
    requires forall i :: 0 <= i < |items| ==> items[i].price != 0
    ensures OrderRoute.RequestTotal(AsRequest(items)) == MenuPage.CartTotal(items)
    decreases |items|
  {
    if |items| > 0 {
      assert AsRequest(items)[1..] == AsRequest(items[1..]);
      OrderTotalMatchesCart(items[1..]);
    }
  }

  /** Placing an order end to end: the cart's lines reach the route, whose
      201 envelope the channel unwraps on the first attempt; the page then
      holds exactly the order the route created, clears the cart and shows
      the success toast. With no free line, that order's total is the cart
      total the page showed. */
  lemma {:induction false} PlacedOrderIsRouteOrder(page: MenuPage.PageState, req: OrderRoute.OrderRequest,
                                                   user: Option<OrderRoute.Claims>, millis: string, isoTime: string,
                                                   transportMessage: string, script: seq<Channel.Outcome<Order>>)
    requires |page.cart.items| > 0 && page.selectedMealSlot != ""
    requires req.items == OrderRoute.Items(AsRequest(page.cart.items))
    requires Channel.ScriptCovers(page.client.retryCount, script)
    requires script[0] == Deliver(OrderRoute.CreateOrder(req, user, millis, isoTime), transportMessage)
    ensures var served := OrderRoute.CreateOrder(req, user, millis, isoTime).body.data.value;
      var c := Channel.CreateOrder(page.client, script);
      c.result == Ok(served) && c.attempts == 1 && c.state.retryCount == 0
    ensures var served := OrderRoute.CreateOrder(req, user, millis, isoTime).body.data.value;
      var p := MenuPage.PlaceOrder(page, script);
      && p.order == Some(served)
      && p.page.cart == MenuPage.EmptyCart
      && p.toasts == [MenuPage.PlacedToast]
      && p.attempts == 1
    ensures (forall i :: 0 <= i < |page.cart.items| ==> page.cart.items[i].price != 0) ==>
      MenuPage.PlaceOrder(page, script).order.value.totalAmount == MenuPage.CartTotal(page.cart.items)
  {
    var r := OrderRoute.CreateOrder(req, user, millis, isoTime);
    assert r.status == 201 && r.body.success && r.body.data.Some?;
    assert script[0] == Channel.Responded(r.body);
    if forall i :: 0 <= i < |page.cart.items| ==> page.cart.items[i].price != 0 {
      OrderTotalMatchesCart(page.cart.items);
    }
  }

  /** A free item is charged at the fixed price: `price || 15.99` treats 0 as missing. */
  lemma FreeItemIsCharged(id: string)
    ensures var items := [OrderItem(id, 1, None, 0)];
      MenuPage.CartTotal(items) == 0 && OrderRoute.RequestTotal(AsRequest(items)) == OrderRoute.MockPrice
  {
    var items := [OrderItem(id, 1, None, 0)];
    assert AsRequest(items)[1..] == [];
  }

  /** The returned lines all carry the fixed price, so they add up to that
      price times the units ordered. On its own this is distributivity over a
      sum; it matters beside `TotalCanDisagreeWithLines`, since it fixes what
      the returned lines add up to while `totalAmount` follows the sent prices. */
  lemma {:induction false} FixedPriceLinesTotal(items: seq<OrderItem>)
    requires forall i :: 0 <= i < |items| ==> items[i].price == OrderRoute.MockPrice
    ensures MenuPage.CartTotal(items) == OrderRoute.MockPrice * MenuPage.ItemCount(items)
    decreases |items|
  {
    if |items| > 0 {
      FixedPriceLinesTotal(items[1..]);
    }
  }

  /** The created order's lines need not add up to its `totalAmount`: a
      12.99 line is charged 12.99 but returned priced 15.99. */
  lemma TotalCanDisagreeWithLines(user: Option<OrderRoute.Claims>, millis: string, isoTime: string)
    ensures var req := OrderRoute.OrderRequest(OrderRoute.Items([OrderRoute.RequestItem("2", 1, None, Some(1299))]), None, None, None, None);
      var o := OrderRoute.CreateOrder(req, user, millis, isoTime).body.data.value;
      o.totalAmount == 1299 && MenuPage.CartTotal(o.items) == OrderRoute.MockPrice
  {
    var lines := [OrderRoute.RequestItem("2", 1, None, Some(1299))];
    var req := OrderRoute.OrderRequest(OrderRoute.Items(lines), None, None, None, None);
    var o := OrderRoute.CreateOrder(req, user, millis, isoTime).body.data.value;
    assert lines[1..] == [];
    assert |o.items| == 1 && o.items[0].price == OrderRoute.MockPrice && o.items[0].quantity == 1;
    assert o.items[1..] == [];
  }
}

=== FILE: menu_page.dfy ===
/** The ordering page (`frontend/src/pages/menu.tsx`): the merge-on-add cart,
    its derived count and total, the menu filter, meal-slot status and
    selection, and order placement with its cart reset. */
module MenuPage {
  import opened Wrappers
  import opened Strings
  import opened Types
  import opened Seqs
  import opened Channel

  // ----- Cart -----

  /** The cart the page starts with, and resets to after a placed order. */
  const EmptyCart := OrderFormData([], [], "", "", None)

  predicate InCart(items: seq<OrderItem>, id: string)
  {
    exists i :: 0 <= i < |items| && items[i].menuItemId == id
  }

  /** At most one line per menu item. */
  predicate UniqueIds(items: seq<OrderItem>)
  {
    forall i, j :: 0 <= i < j < |items| ==> items[i].menuItemId != items[j].menuItemId
  }

  /** Every line for `id` gains one unit; all other lines are untouched. */
  function Bump(items: seq<OrderItem>, id: string): (r: seq<OrderItem>)
    ensures |r| == |items|
    ensures forall i :: 0 <= i < |items| && items[i].menuItemId != id ==> r[i] == items[i]
    ensures forall i :: 0 <= i < |items| && items[i].menuItemId == id ==>
      r[i] == items[i].(quantity := items[i].quantity + 1)
    decreases |items|
  {
    if |items| == 0 then []
    else
      var head := if items[0].menuItemId == id then items[0].(quantity := items[0].quantity + 1) else items[0];
      [head] + Bump(items[1..], id)
  }

  /** The line appended for an item not yet in the cart. */
  function NewLine(item: MenuItem): OrderItem
  {
    OrderItem(item.id, 1, None, item.price)
  }

  /** `handleAddToCart`: merge into the existing line, or append a new one. */
  function AddToCart(cart: OrderFormData, item: MenuItem): (r: OrderFormData)
    ensures r.dietaryRestrictions == cart.dietaryRestrictions && r.specialRequests == cart.specialRequests
    ensures r.seat == cart.seat && r.mealSlot == cart.mealSlot
    ensures InCart(cart.items, item.id) ==> |r.items| == |cart.items|
    ensures InCart(cart.items, item.id) ==> forall i :: 0 <= i < |cart.items| ==>
      r.items[i] == (if cart.items[i].menuItemId == item.id
                     then cart.items[i].(quantity := cart.items[i].quantity + 1)
                     else cart.items[i])
    ensures !InCart(cart.items, item.id) ==>
      r.items == cart.items + [OrderItem(item.id, 1, None, item.price)]
    ensures InCart(r.items, item.id)
  {
    if InCart(cart.items, item.id) then
      var items := Bump(cart.items, item.id);
      var i :| 0 <= i < |cart.items| && cart.items[i].menuItemId == item.id;
      assert items[i].menuItemId == item.id;
      cart.(items := items)
    else
      var items := cart.items + [NewLine(item)];
      assert items[|cart.items|].menuItemId == item.id;
      cart.(items := items)
  }

  predicate AllUnitsPositive(items: seq<OrderItem>)
  {
    forall i :: 0 <= i < |items| ==> items[i].quantity >= 1
  }

  predicate NoNegativeLines(items: seq<OrderItem>)
  {
    forall i :: 0 <= i < |items| ==> items[i].price >= 0 && items[i].quantity >= 0
  }

  /** `cartItemCount`: the sum of the quantities. */
  function ItemCount(items: seq<OrderItem>): (n: int)
    ensures |items| == 0 ==> n == 0
    decreases |items|
  {
    if |items| == 0 then 0 else items[0].quantity + ItemCount(items[1..])
  }

  /** `cartTotal`: the sum of unit price times quantity, in cents. */
  function CartTotal(items: seq<OrderItem>): (t: int)
    ensures |items| == 0 ==> t == 0
    decreases |items|
  {
    if |items| == 0 then 0 else items[0].price * items[0].quantity + CartTotal(items[1..])
  }

  /** With every line holding at least one unit, the badge is at least the
      number of lines, so a non-empty cart never shows zero. */
  lemma {:induction false} ItemCountCoversLines(items: seq<OrderItem>)
    requires AllUnitsPositive(items)
    ensures ItemCount(items) >= |items|
    ensures |items| > 0 ==> ItemCount(items) > 0
    decreases |items|
  {
    if |items| > 0 {
      assert AllUnitsPositive(items[1..]) by {
        assert forall j :: 0 <= j < |items[1..]| ==> items[1..][j] == items[j + 1];
      }
      ItemCountCoversLines(items[1..]);
    }
  }

  /** No negative price or quantity means no negative total. */
  lemma {:induction false} CartTotalNonNegative(items: seq<OrderItem>)
    requires NoNegativeLines(items)
    ensures CartTotal(items) >= 0
    decreases |items|
  {
    if |items| > 0 {
      assert NoNegativeLines(items[1..]) by {
        assert forall j :: 0 <= j < |items[1..]| ==> items[1..][j] == items[j + 1];
      }
      CartTotalNonNegative(items[1..]);
      assert items[0].price * items[0].quantity >= 0;
    }
  }

  /** Adding keeps every line at one unit or more: lines start at one and
      only ever grow. */
  lemma AddKeepsUnitsPositive(cart: OrderFormData, item: MenuItem)
    requires AllUnitsPositive(cart.items)
    ensures AllUnitsPositive(AddToCart(cart, item).items)
  {
  }

  lemma {:induction false} SumsAppend(items: seq<OrderItem>, line: OrderItem)
    ensures ItemCount(items + [line]) == ItemCount(items) + line.quantity
    ensures CartTotal(items + [line]) == CartTotal(items) + line.price * line.quantity
    decreases |items|
  {
    if |items| == 0 {
      assert items + [line] == [line];
    } else {
      assert (items + [line])[1..] == items[1..] + [line];
      SumsAppend(items[1..], line);
    }
  }

  /** Bumping the single line of `id` in a duplicate-free cart adds one unit
      and that line's captured price. */
  lemma SumsBump(items: seq<OrderItem>, id: string, k: nat)
    requires UniqueIds(items) && k < |items| && items[k].menuItemId == id
    ensures ItemCount(Bump(items, id)) == ItemCount(items) + 1
    ensures CartTotal(Bump(items, id)) == CartTotal(items) + items[k].price
  {
    CountBump(items, id, k);
    TotalBump(items, id, k);
  }

  /** Bumping commutes with dropping the first line. */
  lemma BumpTail(items: seq<OrderItem>, id: string)
    requires |items| > 0
    ensures Bump(items, id)[1..] == Bump(items[1..], id)
  {
  }

  /** A duplicate-free cart whose first line is `id` has no `id` after it. */
  lemma UniqueHead(items: seq<OrderItem>, id: string)
    requires UniqueIds(items) && |items| > 0 && items[0].menuItemId == id
    ensures Bump(items[1..], id) == items[1..]
  {
    assert !InCart(items[1..], id) by {
      assert forall j :: 0 <= j < |items[1..]| ==> items[1..][j] == items[j + 1];
    }
    NoMatchBumpIdentity(items[1..], id);
  }

  lemma {:induction false} CountBump(items: seq<OrderItem>, id: string, k: nat)
    requires UniqueIds(items) && k < |items| && items[k].menuItemId == id
    ensures ItemCount(Bump(items, id)) == ItemCount(items) + 1
    decreases |items|
  {
    BumpTail(items, id);
    if k == 0 {
      UniqueHead(items, id);
    } else {
      CountBump(items[1..], id, k - 1);
    }
  }

  lemma {:induction false} TotalBump(items: seq<OrderItem>, id: string, k: nat)
    requires UniqueIds(items) && k < |items| && items[k].menuItemId == id
    ensures CartTotal(Bump(items, id)) == CartTotal(items) + items[k].price
    decreases |items|
  {
    BumpTail(items, id);
    if k == 0 {
      UniqueHead(items, id);
      OneMoreUnit(items[0].price, items[0].quantity);
    } else {
      TotalBump(items[1..], id, k - 1);
    }
  }

  lemma OneMoreUnit(price: int, q: int)
    ensures price * (q + 1) == price * q + price
  {
  }

  lemma NoMatchBumpIdentity(items: seq<OrderItem>, id: string)
    requires !InCart(items, id)
    ensures Bump(items, id) == items
  {
  }

  /** Adding an item raises the count by exactly one and the total by the unit
      price of the line it lands on: the captured price of an existing line,
      or the item's current price for a new one. */
  lemma AddToCartSums(cart: OrderFormData, item: MenuItem)
    requires UniqueIds(cart.items)
    ensures ItemCount(AddToCart(cart, item).items) == ItemCount(cart.items) + 1
    ensures !InCart(cart.items, item.id) ==>
      CartTotal(AddToCart(cart, item).items) == CartTotal(cart.items) + item.price
    ensures forall k :: 0 <= k < |cart.items| && cart.items[k].menuItemId == item.id ==>
      CartTotal(AddToCart(cart, item).items) == CartTotal(cart.items) + cart.items[k].price
  {
    if InCart(cart.items, item.id) {
      forall k | 0 <= k < |cart.items| && cart.items[k].menuItemId == item.id
        ensures CartTotal(AddToCart(cart, item).items) == CartTotal(cart.items) + cart.items[k].price
      {
        SumsBump(cart.items, item.id, k);
      }
      var k :| 0 <= k < |cart.items| && cart.items[k].menuItemId == item.id;
      SumsBump(cart.items, item.id, k);
    } else {
      SumsAppend(cart.items, NewLine(item));
    }
  }

  /** Adding never creates a second line for the same item. */
  lemma AddPreservesUniqueIds(cart: OrderFormData, item: MenuItem)
    requires UniqueIds(cart.items)
    ensures UniqueIds(AddToCart(cart, item).items)
  {
  }

  /** A run of adds, one per clicked item. */
  function AddAll(cart: OrderFormData, clicks: seq<MenuItem>): OrderFormData
    decreases |clicks|
  {
    if |clicks| == 0 then cart else AddAll(AddToCart(cart, clicks[0]), clicks[1..])
  }

  /** After n adds the count has grown by n and lines are still one per item. */
  lemma {:induction false} AddAllCounts(cart: OrderFormData, clicks: seq<MenuItem>)
    requires UniqueIds(cart.items)
    ensures UniqueIds(AddAll(cart, clicks).items)
    ensures ItemCount(AddAll(cart, clicks).items) == ItemCount(cart.items) + |clicks|
    decreases |clicks|
  {
    if |clicks| > 0 {
      AddToCartSums(cart, clicks[0]);
      AddPreservesUniqueIds(cart, clicks[0]);
      AddAllCounts(AddToCart(cart, clicks[0]), clicks[1..]);
    }
  }

  /** From the empty cart, n adds give a count of n. */
  lemma AddsFromEmpty(clicks: seq<MenuItem>)
    ensures ItemCount(AddAll(EmptyCart, clicks).items) == |clicks|
    ensures UniqueIds(AddAll(EmptyCart, clicks).items)
  {
    AddAllCounts(EmptyCart, clicks);
  }

  // ----- Menu filter -----

  /** The per-item test of `getFilteredMenu`: category (unless "all"),
      inclusive price range, and dietary overlap when tags are requested.
      The cabin class is not consulted. */
  predicate Keep(item: MenuItem, f: MenuFilters)
  {
    && (f.category == "all" || item.category == f.category)
    && f.priceLow <= item.price <= f.priceHigh
    && (|f.dietaryRestrictions| > 0 ==> SomeIn(f.dietaryRestrictions, item.dietaryCategories))
  }

  function KeepFn(f: MenuFilters): MenuItem -> bool
  {
    (item: MenuItem) => Keep(item, f)
  }

  function FilterMenu(items: seq<MenuItem>, f: MenuFilters): seq<MenuItem>
  {
    Filter(items, KeepFn(f))
  }

  /** `getFilteredMenu`: nothing before the menu has loaded, else the kept items. */
  function FilteredMenu(menuData: Option<MenuResponse>, f: MenuFilters): (r: seq<MenuItem>)
    ensures menuData.None? ==> r == []
    ensures menuData.Some? ==> IsSubsequence(r, menuData.value.menu)
    ensures menuData.Some? ==> forall x :: x in r <==> x in menuData.value.menu && Keep(x, f)
    ensures menuData.Some? ==> forall x ::
      multiset(r)[x] == if Keep(x, f) then multiset(menuData.value.menu)[x] else 0
  {
    if menuData.None? then []
    else
      var items := menuData.value.menu;
      FilterIsSubsequence(items, KeepFn(f));
      forall x ensures x in FilterMenu(items, f) <==> x in items && Keep(x, f) {
        FilterMembership(items, KeepFn(f), x);
      }
      forall x ensures multiset(FilterMenu(items, f))[x] == if Keep(x, f) then multiset(items)[x] else 0 {
        FilterMultiplicity(items, KeepFn(f), x);
      }
      FilterMenu(items, f)
  }

  /** Filtering an already filtered list with the same filters changes nothing. */
  lemma FilterMenuIdempotent(items: seq<MenuItem>, f: MenuFilters)
    ensures FilterMenu(FilterMenu(items, f), f) == FilterMenu(items, f)
  {
    FilterIdempotent(items, KeepFn(f));
  }

  /** The page's filter ignores the cabin class entirely. */
  lemma FilterMenuIgnoresCabin(items: seq<MenuItem>, f: MenuFilters, cabin: string)
    ensures FilterMenu(items, f.(cabinClass := cabin)) == FilterMenu(items, f)
  {
    FilterCongruent(items, KeepFn(f.(cabinClass := cabin)), KeepFn(f));
  }

  // ----- Meal slots -----

  datatype SlotStatus = Locked | Active | Upcoming

  /** The status label: a lock wins over the active flag. */
  function StatusOf(slot: MealSlot): (s: SlotStatus)
    ensures s == Locked <==> slot.isLocked
    ensures s == Active <==> !slot.isLocked && slot.isActive
    ensures s == Upcoming <==> !slot.isLocked && !slot.isActive
  {
    if slot.isLocked then Locked else if slot.isActive then Active else Upcoming
  }

  /** A click on a slot card: a locked slot is ignored, any other is selected. */
  function ClickSlot(selected: string, slot: MealSlot): (r: string)
    ensures r == selected || (r == slot.id && StatusOf(slot) != Locked)
    ensures StatusOf(slot) != Locked ==> r == slot.id
  {
    if !slot.isLocked then slot.id else selected
  }

  function ClickSlots(selected: string, clicks: seq<MealSlot>): string
    decreases |clicks|
  {
    if |clicks| == 0 then selected else ClickSlots(ClickSlot(selected, clicks[0]), clicks[1..])
  }

  /** Whatever the clicks, the selection is the initial one or the id of a
      clicked slot that was not locked: a locked slot is never selected. */
  lemma {:induction false} SelectionNeverLocked(selected: string, clicks: seq<MealSlot>)
    ensures var r := ClickSlots(selected, clicks);
      r == selected || exists i :: 0 <= i < |clicks| && clicks[i].id == r && StatusOf(clicks[i]) != Locked
    decreases |clicks|
  {
    if |clicks| > 0 {
      var next := ClickSlot(selected, clicks[0]);
      SelectionNeverLocked(next, clicks[1..]);
      var r := ClickSlots(next, clicks[1..]);
      if r != next {
        var i :| 0 <= i < |clicks[1..]| && clicks[1..][i].id == r && StatusOf(clicks[1..][i]) != Locked;
        assert clicks[i + 1] == clicks[1..][i];
      } else if r != selected {
        assert clicks[0].id == r && StatusOf(clicks[0]) != Locked;
      }
    }
  }

  // ----- Placing an order -----

  const EmptyCartToast := "Please add items to your cart"
  const NoSlotToast := "Please select a meal slot"
  const PlacedToast := "Order placed successfully!"
  const PlaceFailedFallback := "Failed to place order"

  datatype PageState = PageState(cart: OrderFormData, selectedMealSlot: string, client: ClientState)

  /** What placing an order did: the page afterwards, the body sent (if any),
      the channel's attempts, the toasts in order, and the created order. */
  datatype Placement = Placement(
    page: PageState,
    submitted: Option<OrderFormData>,
    attempts: nat,
    toasts: seq<string>,
    order: Option<Order>)

  /** `handlePlaceOrder` with the mutation's success and error effects. */
  function PlaceOrder(page: PageState, script: seq<Outcome<Order>>): (p: Placement)
    requires ScriptCovers(page.client.retryCount, script)
    ensures |page.cart.items| == 0 ==>
      p == Placement(page, None, 0, [EmptyCartToast], None)
    ensures |page.cart.items| > 0 && page.selectedMealSlot == "" ==>
      p == Placement(page, None, 0, [NoSlotToast], None)
    ensures p.submitted.Some? <==> |page.cart.items| > 0 && page.selectedMealSlot != ""
    ensures p.submitted.Some? ==>
      p.submitted.value == page.cart.(mealSlot := Some(page.selectedMealSlot)) && p.attempts >= 1
    ensures p.order.Some? ==> p.page.cart == EmptyCart && p.toasts == [PlacedToast]
    ensures p.order.None? ==> p.page.cart == page.cart
    ensures p.page.selectedMealSlot == page.selectedMealSlot
    ensures p.page.client.store == page.client.store
    ensures p.submitted.Some? ==>
      var c := CreateOrder(page.client, script);
      && p.page.client == c.state
      && p.attempts == c.attempts
      && (p.order.Some? <==> c.result.Ok?)
      && (c.result.Ok? ==> p.order == Some(c.result.value))
      && (c.result.Err? ==>
            p.toasts == (if c.toast.Some? then [c.toast.value] else [])
                        + [OrElse(ErrorText(c.result.error), PlaceFailedFallback)])
  {
    if |page.cart.items| == 0 then Placement(page, None, 0, [EmptyCartToast], None)
    else if page.selectedMealSlot == "" then Placement(page, None, 0, [NoSlotToast], None)
    else
      var body := page.cart.(mealSlot := Some(page.selectedMealSlot));
      var c := CreateOrder(page.client, script);
      match c.result
      case Ok(order) =>
        Placement(PageState(EmptyCart, page.selectedMealSlot, c.state), Some(body), c.attempts, [PlacedToast], Some(order))
      case Err(e) =>
        var channelToast := if c.toast.Some? then [c.toast.value] else [];
        Placement(PageState(page.cart, page.selectedMealSlot, c.state), Some(body), c.attempts,
                  channelToast + [OrElse(ErrorText(e), PlaceFailedFallback)], None)
  }
}

=== FILE: menu_route.dfy ===
/** The menu route's GET handler (`backend/src/routes/menu.js`): required
    query parameters, the fixed item list filtered by cabin class and by the
    comma-separated dietary tags, and the fixed meal slots and flight. */
module MenuRoute {
  import opened Wrappers
  import opened Strings
  import opened Types
  import opened Seqs

  const MissingParams := "Missing required parameters: flightNumber, date, cabinClass"

  /** The query string as the handler reads it; an absent key is `None`. */
  datatype MenuQuery = MenuQuery(
    flightNumber: Option<string>,
    date: Option<string>,
    cabinClass: Option<string>,
    dietaryRestrictions: Option<string>)

  /** JavaScript truthiness of an optional string. */
  predicate Truthy(x: Option<string>)
  {
    x.Some? && x.value != ""
  }

  const GrilledChicken := MenuItem(
    "1", "Grilled Chicken Breast", "Tender grilled chicken breast with herbs and lemon",
    1599, "main", "economy", ["none"], ["gluten-free"],
    NutritionalInfo(350, 45, 5, 12), None, true, 50)

  const VegetarianPasta := MenuItem(
    "2", "Vegetarian Pasta", "Fresh pasta with seasonal vegetables and tomato sauce",
    1299, "main", "economy", ["gluten"], ["vegetarian"],
    NutritionalInfo(420, 12, 65, 8), None, true, 30)

  const CaesarSalad := MenuItem(
    "3", "Caesar Salad", "Fresh romaine lettuce with Caesar dressing and croutons",
    899, "side", "economy", ["gluten", "dairy"], ["vegetarian"],
    NutritionalInfo(180, 6, 12, 14), None, true, 40)

  /** The fixed item list the handler serves from. */
  const MockMenu := [GrilledChicken, VegetarianPasta, CaesarSalad]

  const MockMealSlots := [
    MealSlot("breakfast", "Breakfast", "07:00", "09:00", false, true, []),
    MealSlot("lunch", "Lunch", "12:00", "14:00", false, false, []),
    MealSlot("dinner", "Dinner", "18:00", "20:00", false, false, [])
  ]

  function MockFlight(flightNumber: string, date: string): Flight
  {
    Flight(flightNumber, date, "SFO", "NRT", "10:30", "14:45", "B787", MockMealSlots,
           flightNumber + "-" + date)
  }

  function CabinFn(cabin: string): MenuItem -> bool
  {
    (item: MenuItem) => item.cabinClass == cabin
  }

  function DietaryFn(restrictions: seq<string>): MenuItem -> bool
  {
    (item: MenuItem) => SomeIn(restrictions, item.dietaryCategories)
  }

  /** The menu after both filters: cabin class, then dietary tags when the
      parameter is a non-empty string. */
  function ServedMenu(cabin: string, dietary: Option<string>): seq<MenuItem>
  {
    var byCabin := Filter(MockMenu, CabinFn(cabin));
    if Truthy(dietary) then Filter(byCabin, DietaryFn(Split(dietary.value, ','))) else byCabin
  }

  /** The handler: 400 without a required parameter, otherwise 200 with the
      served menu, all meal slots and the flight record. */
  function GetMenu(q: MenuQuery): (r: HttpResponse<MenuResponse>)
    ensures !(Truthy(q.flightNumber) && Truthy(q.date) && Truthy(q.cabinClass)) ==>
      r == HttpResponse(400, ApiResponse(false, None, Some(MissingParams), None))
    ensures Truthy(q.flightNumber) && Truthy(q.date) && Truthy(q.cabinClass) ==>
      && r.status == 200 && r.body.success && r.body.data.Some?
      && r.body.data.value.mealSlots == MockMealSlots
      && r.body.data.value.flight.flightNumber == q.flightNumber.value
      && r.body.data.value.flight.date == q.date.value
      && r.body.data.value.flight.routeId == q.flightNumber.value + "-" + q.date.value
      && IsSubsequence(r.body.data.value.menu, MockMenu)
      && (forall x :: x in r.body.data.value.menu <==>
            && x in MockMenu
            && x.cabinClass == q.cabinClass.value
            && (Truthy(q.dietaryRestrictions) ==>
                  SomeIn(Split(q.dietaryRestrictions.value, ','), x.dietaryCategories)))
  {
    if !(Truthy(q.flightNumber) && Truthy(q.date) && Truthy(q.cabinClass)) then
      HttpResponse(400, ApiResponse(false, None, Some(MissingParams), None))
    else
      var menu := ServedMenu(q.cabinClass.value, q.dietaryRestrictions);
      ServedMenuSpec(q.cabinClass.value, q.dietaryRestrictions);
      HttpResponse(200, ApiResponse(true, Some(MenuResponse(menu, MockMealSlots,
        MockFlight(q.flightNumber.value, q.date.value))), None, None))
  }

  /** The served menu keeps the fixed list's order and holds exactly the items
      of the requested cabin that match a requested tag (when tags are given). */
  lemma ServedMenuSpec(cabin: string, dietary: Option<string>)
    ensures IsSubsequence(ServedMenu(cabin, dietary), MockMenu)
    ensures forall x :: x in ServedMenu(cabin, dietary) <==>
      && x in MockMenu
      && x.cabinClass == cabin
      && (Truthy(dietary) ==> SomeIn(Split(dietary.value, ','), x.dietaryCategories))
  {
    var byCabin := Filter(MockMenu, CabinFn(cabin));
    FilterIsSubsequence(MockMenu, CabinFn(cabin));
    forall x ensures x in byCabin <==> x in MockMenu && x.cabinClass == cabin {
      FilterMembership(MockMenu, CabinFn(cabin), x);
    }
    if Truthy(dietary) {
      var tags := Split(dietary.value, ',');
      FilterIsSubsequence(byCabin, DietaryFn(tags));
      SubsequenceTransitive(Filter(byCabin, DietaryFn(tags)), byCabin, MockMenu);
      forall x ensures x in Filter(byCabin, DietaryFn(tags)) <==> x in byCabin && SomeIn(tags, x.dietaryCategories) {
        FilterMembership(byCabin, DietaryFn(tags), x);
      }
    }
  }

  /** Economy with `gluten-free` serves only item "1". */
  lemma EconomyGlutenFreeIsItemOne(flightNumber: string, date: string)
    requires flightNumber != "" && date != ""
    ensures GetMenu(MenuQuery(Some(flightNumber), Some(date), Some("economy"), Some("gluten-free"))).body.data.value.menu
            == [GrilledChicken]
  {
    var q := MenuQuery(Some(flightNumber), Some(date), Some("economy"), Some("gluten-free"));
    assert Truthy(q.flightNumber) && Truthy(q.date) && Truthy(q.cabinClass) && Truthy(q.dietaryRestrictions);
    EconomyKeepsAll();
    GlutenFreeIsChicken();
    assert ServedMenu("economy", Some("gluten-free")) == [GrilledChicken];
    assert GetMenu(q).body.data.value.menu == ServedMenu("economy", Some("gluten-free"));
  }

  lemma EconomyKeepsAll()
    ensures Filter(MockMenu, CabinFn("economy")) == MockMenu
  {
    var p := CabinFn("economy");
    var s := MockMenu;
    assert s[1..][1..][1..] == [];
    assert Filter(s[1..][1..], p) == [CaesarSalad];
    assert Filter(s[1..], p) == [VegetarianPasta, CaesarSalad];
  }

  lemma GlutenFreeIsChicken()
    ensures Filter(MockMenu, DietaryFn(Split("gluten-free", ','))) == [GrilledChicken]
  {
    SplitNoSeparator("gluten-free", ',');
    var tags := ["gluten-free"];
    var p := DietaryFn(tags);
    assert p(GrilledChicken) by { assert tags[0] in GrilledChicken.dietaryCategories; }
    assert !p(VegetarianPasta) by { assert tags[0] != "vegetarian"; }
    assert !p(CaesarSalad);
    var s := MockMenu;
    assert s[1..][1..][1..] == [];
    assert Filter(s[1..][1..], p) == [];
    assert Filter(s[1..], p) == [];
  }
}

=== FILE: order_route.dfy ===
/** The order route's POST handler (`backend/src/routes/order.js`): a
    non-empty `items` array is required; the order is built from the body
    with defaults, a fixed unit price on every returned line, and a total
    computed from the request's own prices. */
module OrderRoute {
  import opened Wrappers
  import opened Strings
  import opened Types

  const EmptyItemsError := "Order must contain at least one item"
  /** The fixed price, 15.99, written onto every returned line and used for
      a request line without a usable price. */
  const MockPrice := 1599

  /** A line as received; `price` may be absent. */
  datatype RequestItem = RequestItem(
    menuItemId: string,
    quantity: int,
    specialInstructions: Option<string>,
    price: Option<int>)

  /** The `items` field of the body: absent, some non-array value, or an array. */
  datatype ItemsField = Absent | NotArray | Items(lines: seq<RequestItem>)

  datatype OrderRequest = OrderRequest(
    items: ItemsField,
    dietaryRestrictions: Option<seq<string>>,
    specialRequests: Option<string>,
    seat: Option<string>,
    mealSlot: Option<string>)

  /** The decoded token the authentication step attached, as far as this route reads it. */
  datatype Claims = Claims(id: Option<string>)

  /** `item.price || 15.99`: an absent or zero price falls back to the fixed one. */
  function LinePrice(item: RequestItem): int
  {
    if item.price.Some? && item.price.value != 0 then item.price.value else MockPrice
  }

  /** The `reduce` over the request lines. */
  function RequestTotal(items: seq<RequestItem>): int
    decreases |items|
  {
    if |items| == 0 then 0 else LinePrice(items[0]) * items[0].quantity + RequestTotal(items[1..])
  }

  /** The number of units the request asks for. */
  function Units(items: seq<RequestItem>): int
    decreases |items|
  {
    if |items| == 0 then 0 else items[0].quantity + Units(items[1..])
  }

  /** A line that sends no price, or a price of zero, is charged the mock price. */
  predicate Unpriced(item: RequestItem)
  {
    item.price.None? || item.price.value == 0
  }

  /** When no line sends a usable price, the total is the mock price per unit. */
  lemma {:induction false} UnpricedTotal(items: seq<RequestItem>)
    requires forall i :: 0 <= i < |items| ==> Unpriced(items[i])
    ensures RequestTotal(items) == MockPrice * Units(items)
    decreases |items|
  {
    if |items| > 0 {
      assert forall j :: 0 <= j < |items[1..]| ==> items[1..][j] == items[j + 1];
      UnpricedTotal(items[1..]);
    }
  }

  /** A line's own price wins over the mock price: raising one sent price by
      one cent raises the total by that line's quantity. */
  lemma {:induction false} SentPriceCounts(items: seq<RequestItem>, k: nat, p: int)
    requires k < |items| && p != 0 && p + 1 != 0
    requires items[k].price == Some(p)
    ensures RequestTotal(items[k := items[k].(price := Some(p + 1))]) == RequestTotal(items) + items[k].quantity
    decreases |items|
  {
    var raised := items[k := items[k].(price := Some(p + 1))];
    assert raised[1..] == if k == 0 then items[1..] else items[1..][k - 1 := items[k].(price := Some(p + 1))];
    if k > 0 {
      SentPriceCounts(items[1..], k - 1, p);
    }
  }

  /** A returned line: the request line's fields with the price overwritten. */
  function Priced(item: RequestItem): OrderItem
  {
    OrderItem(item.menuItemId, item.quantity, item.specialInstructions, MockPrice)
  }

  predicate ValidItems(items: ItemsField)
  {
    items.Items? && |items.lines| > 0
  }

  /** The handler. `millis` and `isoTime` stand for the clock readings the
      identifiers and the timestamp are made from. */
  function CreateOrder(req: OrderRequest, user: Option<Claims>, millis: string, isoTime: string): (r: HttpResponse<Order>)
    ensures !ValidItems(req.items) ==>
      r == HttpResponse(400, ApiResponse(false, None, Some(EmptyItemsError), None))
    ensures ValidItems(req.items) ==>
      && r.status == 201 && r.body.success && r.body.data.Some?
      && var o := r.body.data.value;
      && |o.items| == |req.items.lines|
      && (forall i :: 0 <= i < |o.items| ==>
            && o.items[i].menuItemId == req.items.lines[i].menuItemId
            && o.items[i].quantity == req.items.lines[i].quantity
            && o.items[i].specialInstructions == req.items.lines[i].specialInstructions
            && o.items[i].price == MockPrice)
      && o.totalAmount == RequestTotal(req.items.lines)
      && o.status == Pending
      && o.seat == OptOrElse(req.seat, "12A")
      && o.dietaryRestrictions == req.dietaryRestrictions.GetOr([])
      && o.specialRequests == OptOrElse(req.specialRequests, "")
      && o.mealSlot == "lunch"
      && o.passengerId == (if user.Some? then OptOrElse(user.value.id, "anonymous") else "anonymous")
  {
    if !ValidItems(req.items) then
      HttpResponse(400, ApiResponse(false, None, Some(EmptyItemsError), None))
    else
      var lines := req.items.lines;
      var order := Order(
        "order_" + millis,
        "BK" + millis,
        if user.Some? then OptOrElse(user.value.id, "anonymous") else "anonymous",
        OptOrElse(req.seat, "12A"),
        seq(|lines|, i requires 0 <= i < |lines| => Priced(lines[i])),
        RequestTotal(lines),
        Pending,
        isoTime,
        req.dietaryRestrictions.GetOr([]),
        OptOrElse(req.specialRequests, ""),
        "lunch",
        "AA123",
        "2024-01-15");
      HttpResponse(201, ApiResponse(true, Some(order), None, None))
  }

  /** The request's meal slot is never read: two bodies that differ only there
      produce the same response. */
  lemma MealSlotIgnored(req: OrderRequest, slot: Option<string>, user: Option<Claims>, millis: string, isoTime: string)
    ensures CreateOrder(req.(mealSlot := slot), user, millis, isoTime) == CreateOrder(req, user, millis, isoTime)
  {
  }
}

=== FILE: seqs.dfy ===
/** `Array.prototype.filter` and the order-preserving subsequence relation it
    establishes; both the menu page and the menu route filter this way. */
module Seqs {

  /** The elements of `s` satisfying `p`, in their original order. */
  function Filter<T(==)>(s: seq<T>, p: T -> bool): (r: seq<T>)
    ensures |r| <= |s|
    ensures forall i :: 0 <= i < |r| ==> r[i] in s && p(r[i])
    ensures forall i :: 0 <= i < |s| && p(s[i]) ==> s[i] in r
    decreases |s|
  {
    if |s| == 0 then []
    else
      var rest := Filter(s[1..], p);
      if p(s[0]) then [s[0]] + rest else rest
  }

  /** `xs` is `ys` with some elements dropped and the rest kept in order. */
  predicate IsSubsequence<T(==)>(xs: seq<T>, ys: seq<T>)
    decreases |ys|
  {
    |xs| == 0
    || (|ys| > 0
        && ((xs[0] == ys[0] && IsSubsequence(xs[1..], ys[1..]))
            || IsSubsequence(xs, ys[1..])))
  }

  lemma {:induction false} FilterIsSubsequence<T>(s: seq<T>, p: T -> bool)
    ensures IsSubsequence(Filter(s, p), s)
    decreases |s|
  {
    if |s| > 0 {
      FilterIsSubsequence(s[1..], p);
      var rest := Filter(s[1..], p);
      if p(s[0]) {
        var r := [s[0]] + rest;
        assert r[0] == s[0] && r[1..] == rest;
      }
    }
  }

  lemma {:induction false} SubsequenceTransitive<T>(a: seq<T>, b: seq<T>, c: seq<T>)
    requires IsSubsequence(a, b) && IsSubsequence(b, c)
    ensures IsSubsequence(a, c)
    decreases |c|
  {
    if |a| > 0 {
      if IsSubsequence(b, c[1..]) {
        SubsequenceTransitive(a, b, c[1..]);
      } else if a[0] == b[0] && IsSubsequence(a[1..], b[1..]) {
        SubsequenceTransitive(a[1..], b[1..], c[1..]);
      } else {
        SubsequenceTransitive(a, b[1..], c[1..]);
      }
    }
  }

  /** Filtering twice by the same predicate changes nothing the second time. */
  lemma {:induction false} FilterIdempotent<T>(s: seq<T>, p: T -> bool)
    ensures Filter(Filter(s, p), p) == Filter(s, p)
    decreases |s|
  {
    if |s| > 0 {
      FilterIdempotent(s[1..], p);
      var rest := Filter(s[1..], p);
      if p(s[0]) {
        var r := [s[0]] + rest;
        assert r[0] == s[0] && r[1..] == rest;
      }
    }
  }

  /** The result of filtering depends only on the predicate's verdicts on `s`. */
  lemma {:induction false} FilterCongruent<T>(s: seq<T>, p: T -> bool, q: T -> bool)
    requires forall x :: x in s ==> p(x) == q(x)
    ensures Filter(s, p) == Filter(s, q)
    decreases |s|
  {
    if |s| > 0 {
      assert s[0] in s;
      assert forall x :: x in s[1..] ==> x in s;
      FilterCongruent(s[1..], p, q);
    }
  }

  /** Filtering keeps every copy of a kept element and none of a dropped one. */
  lemma {:induction false} FilterMultiplicity<T>(s: seq<T>, p: T -> bool, x: T)
    ensures multiset(Filter(s, p))[x] == if p(x) then multiset(s)[x] else 0
    decreases |s|
  {
    if |s| > 0 {
      FilterMultiplicity(s[1..], p, x);
      assert s == [s[0]] + s[1..];
      assert multiset(s) == multiset{s[0]} + multiset(s[1..]);
    }
  }

  /** Membership in a filtered sequence, stated element-wise. */
  lemma FilterMembership<T>(s: seq<T>, p: T -> bool, x: T)
    ensures x in Filter(s, p) <==> x in s && p(x)
  {
    var r := Filter(s, p);
    if x in r {
      var i :| 0 <= i < |r| && r[i] == x;
    }
    if x in s && p(x) {
      var i :| 0 <= i < |s| && s[i] == x;
    }
  }
}

=== FILE: strings.dfy ===
/** The few JavaScript string operations the order pipeline depends on:
    `Array.prototype.join`, `String.prototype.split` with a one-character
    separator, and the `s || fallback` idiom on strings. */
module Strings {
  import opened Wrappers

  /** `parts.join(sep)`: the parts in order with `sep` between neighbours. */
  function Join(parts: seq<string>, sep: string): string
    decreases |parts|
  {
    if |parts| == 0 then ""
    else if |parts| == 1 then parts[0]
    else parts[0] + sep + Join(parts[1..], sep)
  }

  /** `s.split(sep)` for a one-character separator: the maximal runs between
      separators, always at least one (`"".split(",")` is `[""]`). Its partner
      is `Join`: joining the parts with the separator gives back `s`. */
  function Split(s: string, sep: char): (parts: seq<string>)
    ensures |parts| >= 1
    ensures Join(parts, [sep]) == s
    ensures forall i :: 0 <= i < |parts| ==> sep !in parts[i]
    decreases |s|
  {
    if |s| == 0 then [""]
    else
      var rest := Split(s[1..], sep);
      if s[0] == sep then
        assert s == [sep] + s[1..];
        [""] + rest
      else
        JoinConsHead(s[0], rest, [sep]);
        assert s == [s[0]] + s[1..];
        [[s[0]] + rest[0]] + rest[1..]
  }

  /** Prepending to the first part prepends to the joined string. */
  lemma JoinConsHead(c: char, parts: seq<string>, sep: string)
    requires |parts| >= 1
    ensures Join([[c] + parts[0]] + parts[1..], sep) == [c] + Join(parts, sep)
  {
    var q := [[c] + parts[0]] + parts[1..];
    assert q[1..] == parts[1..];
  }

  /** JavaScript `s || fallback` on a string: the empty string is falsy. */
  function OrElse(s: string, fallback: string): (r: string)
    ensures s != "" ==> r == s
    ensures s == "" ==> r == fallback
  {
    if s != "" then s else fallback
  }

  /** JavaScript `x || fallback` on an optional string: absent and empty are both falsy. */
  function OptOrElse(x: Option<string>, fallback: string): (r: string)
    ensures x.Some? && x.value != "" ==> r == x.value
    ensures x.None? || x.value == "" ==> r == fallback
  {
    if x.Some? then OrElse(x.value, fallback) else fallback
  }

  /** Splitting a string that starts with a separator-free run `p` yields `p`
      glued to the first part of the remainder. */
  lemma {:induction false} SplitPrefix(p: string, t: string, sep: char)
    requires sep !in p
    ensures Split(p + t, sep) == [p + Split(t, sep)[0]] + Split(t, sep)[1..]
    decreases |p|
  {
    if |p| == 0 {
      var parts := Split(t, sep);
      assert p + t == t;
      assert p + parts[0] == parts[0];
      assert parts == [parts[0]] + parts[1..];
    } else {
      var pt := p + t;
      assert pt[0] == p[0] && pt[1..] == p[1..] + t;
      SplitPrefix(p[1..], t, sep);
      assert [p[0]] + (p[1..] + Split(t, sep)[0]) == p + Split(t, sep)[0];
    }
  }

  /** A leading separator splits off an empty first part. */
  lemma SplitAtSep(t: string, sep: char)
    ensures Split([sep] + t, sep) == [""] + Split(t, sep)
  {
    assert ([sep] + t)[1..] == t;
  }

  /** The field after the first separator runs up to the next one. */
  lemma SplitSecondField(p: string, a: string, b: string, sep: char)
    requires sep !in p && sep !in a
    ensures var parts := Split(p + ([sep] + (a + ([sep] + b))), sep);
      |parts| >= 2 && parts[1] == a
  {
    var inner := a + ([sep] + b);
    SplitAtSep(b, sep);
    SplitPrefix(a, [sep] + b, sep);
    assert Split(inner, sep)[0] == a;
    SplitAtSep(inner, sep);
    SplitPrefix(p, [sep] + inner, sep);
  }

  /** Round trip used by the menu query: splitting joined, separator-free
      parts recovers the parts exactly. */
  lemma {:induction false} SplitJoin(parts: seq<string>, sep: char)
    requires |parts| >= 1
    requires forall i :: 0 <= i < |parts| ==> sep !in parts[i]
    ensures Split(Join(parts, [sep]), sep) == parts
    decreases |parts|
  {
    if |parts| == 1 {
      SplitPrefix(parts[0], "", sep);
      assert parts[0] + "" == parts[0];
    } else {
      var rest := parts[1..];
      SplitJoin(rest, sep);
      var t := [sep] + Join(rest, [sep]);
      assert Join(parts, [sep]) == parts[0] + t;
      SplitPrefix(parts[0], t, sep);
      assert t[0] == sep && t[1..] == Join(rest, [sep]);
      assert Split(t, sep) == [""] + rest;
      assert parts[0] + "" == parts[0];
      assert parts == [parts[0]] + rest;
    }
  }

  /** Splitting a string without the separator gives the string alone. */
  lemma SplitNoSeparator(s: string, sep: char)
    requires sep !in s
    ensures Split(s, sep) == [s]
  {
    SplitJoin([s], sep);
  }
}

=== FILE: types.dfy ===
/** The records exchanged between the ordering page, its API client and the
    server routes. Money is held in integer cents (a price of 15.99 is 1599),
    so totals are exact. */
module Types {
  import opened Wrappers

  datatype NutritionalInfo = NutritionalInfo(calories: int, protein: int, carbs: int, fat: int)

  /** A dish on a flight's menu. `category` and `cabinClass` stay strings because
      both sides compare them against free-form filter and query strings. */
  datatype MenuItem = MenuItem(
    id: string,
    name: string,
    description: string,
    price: int,
    category: string,
    cabinClass: string,
    allergens: seq<string>,
    dietaryCategories: seq<string>,
    nutritionalInfo: NutritionalInfo,
    imageUrl: Option<string>,
    available: bool,
    stockQuantity: int)

  /** One cart line: a menu item, how many, and the unit price captured when it
      was first added. */
  datatype OrderItem = OrderItem(
    menuItemId: string,
    quantity: int,
    specialInstructions: Option<string>,
    price: int)

  datatype MealSlot = MealSlot(
    id: string,
    name: string,
    startTime: string,
    endTime: string,
    isLocked: bool,
    isActive: bool,
    crewAssigned: seq<string>)

  datatype Flight = Flight(
    flightNumber: string,
    date: string,
    origin: string,
    destination: string,
    departureTime: string,
    arrivalTime: string,
    aircraftType: string,
    mealSlots: seq<MealSlot>,
    routeId: string)

  datatype OrderStatus = Pending | Confirmed | Preparing | Delivered | Cancelled

  /** An order as the order route creates it. */
  datatype Order = Order(
    id: string,
    bookingRef: string,
    passengerId: string,
    seat: string,
    items: seq<OrderItem>,
    totalAmount: int,
    status: OrderStatus,
    timestamp: string,
    dietaryRestrictions: seq<string>,
    specialRequests: string,
    mealSlot: string,
    flightNumber: string,
    flightDate: string)

  /** The `{success, data, error, message}` envelope every route answers with. */
  datatype ApiResponse<T> = ApiResponse(
    success: bool,
    data: Option<T>,
    error: Option<string>,
    message: Option<string>)

  datatype MenuResponse = MenuResponse(menu: seq<MenuItem>, mealSlots: seq<MealSlot>, flight: Flight)

  /** The page's cart, which is also the body it submits as an order. */
  datatype OrderFormData = OrderFormData(
    items: seq<OrderItem>,
    dietaryRestrictions: seq<string>,
    specialRequests: string,
    seat: string,
    mealSlot: Option<string>)

  /** The page's filter state; `priceLow`/`priceHigh` is the inclusive price range. */
  datatype MenuFilters = MenuFilters(
    cabinClass: string,
    dietaryRestrictions: seq<string>,
    priceLow: int,
    priceHigh: int,
    category: string)

  datatype User = User(id: string, email: string, name: string, role: string)

  datatype LoginData = LoginData(user: User, token: string)

  /** What a route sends back: an HTTP status and an envelope. */
  datatype HttpResponse<T> = HttpResponse(status: int, body: ApiResponse<T>)

  /** `xs.some(x => ys.includes(x))`: some element of `xs` occurs in `ys`. */
  predicate SomeIn(xs: seq<string>, ys: seq<string>)
  {
    exists i :: 0 <= i < |xs| && xs[i] in ys
  }
}

=== FILE: wrappers.dfy ===
/** Optional values and success/failure results, the shapes JavaScript expresses
    with `undefined` fields and thrown errors. */
module Wrappers {

  datatype Option<+T> = None | Some(value: T) {

    /** The value when present, `default` otherwise (JavaScript's `x ?? default`). */
    function GetOr(default: T): T {
      match this
      case Some(v) => v
      case None => default
    }
  }

  datatype Result<+R, +E> = Ok(value: R) | Err(error: E)
}
